=== FILE: README.md ===
# Masjid finder route core, modelled in Dafny

The masjid finder takes a position typed into its window. It snaps the
position to the closest vertex of a street graph. It then runs Dijkstra's
shortest-path search from that vertex, driven by a pairing heap. Finally it
picks the destination city (mosque) with the least distance and rebuilds the
route to it from the predecessor table.

This project models that pipeline as pure functions and methods over
immutable values, and proves what each step computes:

- `optional.dfy` and `distance.dfy`:
  - the `Option` type;
  - distances as `Fin(r)` or `Inf`, with Python's float `<`, `<=` and `+` on them.
- `pairing_heap.dfy`: the pairing heap of function.py.
  - It works on a tree of nodes with explicit child lists.
  - The heap and its index are abstracted by the multiset of (key, value) entries.
  - Both the intended `decrease_key` and the one the code writes are modelled (see Findings).
- `literal_cut_trace.dfy`: the heap calls of one search traced through the `decrease_key` the code writes, on which a queued vertex is lost (see Findings).
- `path_reconstruction.dfy`: `reconstruct_path`, following predecessors back to the start.
- `shortest_path.dfy`: `dijkstra_with_path`, driven by the intended `decrease_key`. The code's own `decrease_key` can drop queued vertices during a search, so these results hold of the corrected search, not of the code as written (see Findings). The proofs cover three things:
  - the heap tracking the queued vertices;
  - the loop invariants of the search;
  - what the corrected search's result means: a finite distance exactly for reachable vertices, no walk shorter than the distance, and a rebuilt path attaining the distance.
- `nearest_node.dfy`: `find_closest_node`.
- `nearest_destination.dfy`: the nearest-mosque selection loop. It appears twice in 2masjid_heap.py, and both copies are modelled.
- `route.dfy`: `run_search` end to end over the corrected search, and the fact that its choice is then a shortest route to the nearest reachable destination.

Some inputs are parameters:

- The edge weight `w`, which the source computes with `haversine` from the `locations` coordinates, is a parameter of the search. Its type, `Weight`, is the non-negative reals.
- The query-to-location measure of `find_closest_node` is a parameter `measure`.
- The graph, the locations table and the destination cities come from a data module. They are parameters too.

## Model

| member | source | states |
|---|---|---|
| `Distance.Add` | function.py:150 | adding a finite weight to `inf` stays `inf` and to a finite distance stays finite; a non-negative weight never lowers a distance |
| `PairingHeap.Link` | function.py:26-35 | linking two trees keeps all their entries; the root with the strictly smaller key stays root and takes the other as its first child, and on equal keys the second tree wins |
| `PairingHeap.Merge` | function.py:20-35 | merging keeps every entry of both heaps and keeps heap order; the result is absent only when both inputs are |
| `PairingHeap.MergeChildren` | function.py:69-77 | folding the children back together one `merge` at a time keeps exactly the entries of all the children |
| `PairingHeap.MergeChildrenOrdered` | function.py:69-78 | the fold of heap-ordered children is heap-ordered |
| `PairingHeap.Empty` | function.py:13-15 | a new heap is valid, holds no entries and indexes nothing |
| `PairingHeap.IsEmpty` | function.py:17-18 | a heap is empty exactly when it holds no entries |
| `PairingHeap.Insert` | function.py:37-40 | insertion keeps the heap valid, adds exactly the entry (key, value), and maps the value to the key in the index |
| `PairingHeap.FindMin` | function.py:92-95 | `None` exactly on an empty heap; otherwise an entry of the heap whose key is at most every key in it |
| `PairingHeap.DeleteMin` | function.py:57-80 | `None` and no change on an empty heap; otherwise it returns an entry of least key, and the remaining valid heap holds exactly the other entries, with that value dropped from the index |
| `PairingHeap.FindMinIsDeleteMin` | function.py:57-95 | `find_min` reports the entry that `delete_min` removes |
| `PairingHeap.InsertThenDeleteMin` | function.py:37-80 | inserting into an empty heap and deleting the minimum returns the inserted entry and an empty heap |
| `PairingHeap.CutForest` | function.py:47-54 | cutting the node of an entry out of a child forest removes exactly that node's subtree, splices the siblings together and keeps heap order |
| `PairingHeap.CutForestAsWritten` | function.py:49-52 | the literal detachment yields the node's subtree and a forest holding at most the remaining entries |
| `PairingHeap.LiteralDetachKeepsEntriesIffFirst` | function.py:49-52 | the literal `parent.child = sibling` keeps every entry of the parent's child list exactly when the node is the first child |
| `PairingHeap.DecreaseKey` | function.py:42-55 | no change unless the value is indexed and the new key is strictly lower; otherwise the value's entry is replaced by one with the new key, nothing else changes, the index follows, and the heap stays valid |
| `PairingHeap.DecreaseKeyAsWritten` | function.py:42-55 | the code as written keeps heap order and gives the node the new key, but it can only lose entries, never add them; when it happens to lose none, the heap stays valid |
| `PairingHeap.DecreaseKeyAsWrittenLosesEntry` | function.py:49-52 | after inserting (0,0), (2,2), (1,1) and lowering the key of 2 to 0.5, the entry (1,1) is no longer reachable in the code as written |
| `PairingHeap.DecreaseKeyKeepsEntry` | function.py:42-55 | on the same input the intended cut keeps the entry (1,1) |
| `PairingHeap.DecreaseKeyKeepsOthers` | function.py:42-55 | the intended `decrease_key` keeps every entry whose value is not the one lowered |
| `LiteralCutTrace.Queued` | function.py:37-40 | inserting s at 0 and then a, b, c, d at `inf`, as the search does, leaves a valid heap rooted at s whose children are the four leaves, the latest inserted first |
| `LiteralCutTrace.FoldEqualLeaves` | function.py:69-77 | folding four leaves of equal key gives a chain in which each later leaf is the parent of the earlier ones, since the second tree wins a tie |
| `LiteralCutTrace.Popped` | function.py:57-80 | popping s from that heap leaves the valid chain a, b, c, d and drops s from the index |
| `LiteralCutTrace.LoweredC` | function.py:42-55 | the literal `decrease_key` of c to 1 on that chain loses nothing: c becomes the root over a (with b below it) and d |
| `LiteralCutTrace.LoweredB` | function.py:42-55 | the literal `decrease_key` of b to 2 next loses nothing either: b is the first child of its parent, and the heap holds c, b, a, d |
| `LiteralCutTrace.LoweredA` | function.py:42-55 | the literal `decrease_key` of a to 3 next leaves only c, a and d in the heap, with every vertex still indexed |
| `LiteralCutTrace.LiteralCutLosesQueuedVertex` | function.py:49-52 | on those heap calls of `dijkstra_with_path` for the graph of the Findings, the last literal cut leaves b indexed, so still queued, but with no entry in the heap, so `delete_min` cannot return it; on that graph no later call lowers b again, so it is never popped |
| `LiteralCutTrace.LiteralCutLosesVertexTwo` | function.py:49-52 | the same loss with s, a, b, c, d numbered 0 to 4 |
| `LiteralCutTrace.IntendedCutKeepsQueuedVertex` | function.py:42-55 | with the intended cut the same call keeps b at key 2 in the heap |
| `PathReconstruction.Walk` | function.py:161-166 | a result found by the backward walk is a predecessor chain from the start to the vertex, and the start occurs only at its head |
| `PathReconstruction.ReconstructPath` | function.py:159-169 | `[start]` when start and end coincide; `[]` when the end has no predecessor; otherwise any non-empty result is a predecessor chain from start to end |
| `PathReconstruction.WalkFindsChain` | function.py:162-166 | whenever a predecessor chain from start to end exists, the backward walk finds one |
| `PathReconstruction.EmptyIffNoChain` | function.py:159-169 | the empty path is returned exactly when no predecessor chain links start to end |
| `ShortestPath.TracksDeleteMin` | function.py:144-145 | while vertices are queued, `delete_min` pops one at its current distance, no farther than any queued vertex, and the rest of the heap tracks the rest of the queue |
| `ShortestPath.TracksDecrease` | function.py:154 | lowering the key of a queued vertex keeps the heap tracking the queue at the updated distances |
| `ShortestPath.TracksEmpty` | function.py:144 | a tracking heap is empty exactly when no vertex is queued |
| `ShortestPath.QueueAll` | function.py:141-142 | after the insertion loop, the heap holds one entry per graph vertex at its initial distance |
| `ShortestPath.RelaxEdge` | function.py:146-154 | when going through the popped vertex strictly shortens a neighbour's distance, the distance and predecessor of that neighbour are updated; otherwise nothing changes; either way the edge ends relaxed and the search invariant holds |
| `ShortestPath.RelaxEdges` | function.py:144-154 | after relaxing all edges of the popped vertex, every edge out of a popped vertex is relaxed |
| `ShortestPath.Dijkstra` | function.py:134-156 | the source sits at 0; every edge is relaxed; each recorded predecessor is a popped vertex whose distance plus the edge weight is exactly the target's distance; a non-source vertex has a predecessor exactly when its distance is finite; predecessor links follow the popping order |
| `ShortestPath.NoWalkIsShorter` | function.py:150-153 | at the relaxation fixpoint no walk from the source weighs less than the distance of its end |
| `ShortestPath.ChainAttainsDist` | function.py:150-153 | a chain of recorded predecessors from the source is a walk of the graph whose weight is exactly its end's distance |
| `ShortestPath.FiniteWalksBack` | function.py:153 | from every vertex with a finite distance, following predecessors reaches the source |
| `ShortestPath.ShortestPaths` | function.py:134-169 | a vertex has a finite distance exactly when some walk from the source reaches it; no walk is shorter than the distance; the rebuilt path is a walk that attains it |
| `NearestNode.FirstNearestUnique` | function.py:126-130 | at most one location is the first one at the least distance |
| `NearestNode.FindClosestNode` | function.py:122-132 | `(None, inf)` exactly when there are no locations; otherwise the first location at the least distance from the query, with that distance |
| `NearestDestination.FirstNearestCityUnique` | 2masjid_heap.py:33-36 | at most one city is the first one at the least distance |
| `NearestDestination.Consider` | 2masjid_heap.py:34-37 | the new best distance is the lesser of the best so far and the city's distance; a tie keeps the earlier choice; a changed choice names the city at its distance with its rebuilt path |
| `NearestDestination.ScanUpTo` | 2masjid_heap.py:30-37 | after scanning a prefix of the cities, nothing is chosen exactly when none has a finite distance; otherwise the choice is the first nearest city, with its distance and rebuilt path |
| `NearestDestination.ScanStep` | 2masjid_heap.py:33-37 | scanning one more city keeps that characterisation of the choice |
| `NearestDestination.NearestMosque` | 2masjid_heap.py:30-37 | the selection over all destination cities in `run_search`: none exactly when no city has a finite distance, else the first nearest one with its distance and path |
| `NearestDestination.ChooseNearestMosque` | 2masjid_heap.py:120-129 | the copy of the loop in `create_and_show_map` makes the same choice, with the same distance and path, as the one in `run_search` |
| `Route.CitiesReconstructible` | 2masjid_heap.py:37 | after the search, rebuilding the path of every reachable destination city succeeds |
| `Route.WalksToCitiesBounded` | 2masjid_heap.py:27-34 | no walk from the origin to a destination city weighs less than that city's distance |
| `Route.ChoiceIsShortest` | 2masjid_heap.py:27-37 | the chosen city is reached by its rebuilt path, which weighs exactly the chosen distance; no walk to any destination weighs less, and every walk to a city listed before it weighs strictly more, so a tie keeps the earliest city; nothing is chosen exactly when no destination is reachable |
| `Route.RunSearch` | 2masjid_heap.py:14-37 | no closest vertex exactly when there are no locations; otherwise the closest vertex is the first nearest location, and the chosen destination is a shortest route from it as above, the earliest listed city among equally near ones; when no city is chosen the distance stays `inf` and the path empty |

## Left out

- Reading the input fields, the Tk window, the printed and displayed text, the Folium map and webview, `add_short_arrow` and `calculate_bearing`: these are user interface, not part of the route computation.
- `haversine`: floating-point trigonometry. The search takes its result as the non-negative weight `w`, and `find_closest_node` takes it as the parameter `measure`.
- The coordinate order: `find_closest_node` passes a location's coordinates to `haversine` in stored order (function.py:127), while `dijkstra_with_path` unpacks them as `lat, lon` and swaps them (function.py:147-149). Both are hidden inside the abstract `measure` and `w`.
- Floating point: distances are exact reals, so rounding and NaN are not modelled.
- `PairingHeap.display` (function.py:82-90): a debugging traversal that nothing in the route computation calls.
- The amortised running time of the pairing heap: the model is about results, not cost.
- `node.active` (function.py:10, 44, 62): `Valid` makes every indexed value name a reachable entry, which is what the flag guards. Popped values leave the index, so the flag has nothing further to decide.
- Inserting a value that is already in the heap: `Insert` then keeps both entries and indexes the new key. The search inserts each vertex once, so this case never arises there.
- Python dict iteration order: `QueueAll` inserts the vertices in an unspecified order. `Dijkstra` promises what holds for every order, not the particular predecessor chosen among equally short routes.
- `ShortestPath.Dijkstra`: it requires every listed neighbour to be a vertex or the source. Where the source would raise `KeyError` on `distances[neighbor]`, the exception caught by `run_search`'s `try` is not modelled.
- `ShortestPath.Dijkstra`: the search runs over the intended `DecreaseKey`, not the literal cut of function.py:49-52. With the literal cut the program can drop a queued vertex from the heap, never pop it, and report a longer distance and another path (see Findings), so the contract does not hold of the code as written.
- `Route.RunSearch`: it runs over `ShortestPath.Dijkstra` and so over the intended `DecreaseKey`. With the literal cut the program's chosen destination, distance and path can differ from the shortest route the contract promises.
- `Route.RunSearch`: it requires every listed neighbour to be a vertex of the graph and every vertex on an edge to have a location. The first excludes the `KeyError` of `distances[neighbor]` (function.py:151) for a neighbour that is not a graph key. It also excludes a case the source handles: a vertex listing the origin as a neighbour while the origin is not a graph key, where `distances[origin]` is 0 and nothing fails. `ShortestPath.Dijkstra` itself accepts that case. The second excludes the `KeyError` of `locations[...]` (function.py:147-148). The `try` block of `run_search` would catch and print either error.
- `PathReconstruction.ReconstructPath`: it requires a `rank` that every predecessor link of the whole table lowers, and that the vertices met on the way back are keys of the table. On a predecessor cycle that avoids the start, the source loops forever, and on a missing key it raises `KeyError`. Because the rank covers the whole table, tables the source handles are excluded too: for `{start: Some(x), x: Some(start)}` and end `x` the source returns `[start, x]`, but the cycle through the start admits no rank. The search result always meets both requirements (`ShortestPath.Dijkstra` ranks its table and `ShortestPath.FiniteWalksBack`).
- `Route.RunSearch`, when there are no locations: the source then runs the search from `None`. Under the precondition above, an empty locations table means no edges, so every destination stays at `inf`. The model states that outcome, no choice with `inf` and `[]`, directly.
- `if nearest_mosque:` (2masjid_heap.py:41, 132): Python truthiness only affects which message is shown.
- The map drawing of `create_and_show_map` after the selection (2masjid_heap.py:131 onward): display only.

## Findings

| source | as written | input that shows it | evidently intended | confidence | as-written member | corrected member |
|---|---|---|---|---|---|---|
| function.py:49-52 | `decrease_key` detaches a non-root node with `node.parent.child = node.sibling`, which is only right when the node is its parent's first child; every earlier sibling becomes unreachable | insert (0, 0), (2, 2), (1, 1), which gives root 0 with children [1, 2]; then `decrease_key(2, 0.5)`: entry (1, 1) is lost from the heap while `node_map` still names it | splice the node out of its parent's child list wherever it sits, keeping the earlier siblings | not executed | `PairingHeap.DecreaseKeyAsWrittenLosesEntry` | `PairingHeap.DecreaseKey` |
| function.py:154 | `dijkstra_with_path` lowers distances with that literal `decrease_key`, so a queued vertex that is an earlier sibling of the lowered one drops out of the heap; unless a later relaxation lowers it again, which merges it back, it is never popped and its edges are never relaxed | graph {s: [c, b, a], a: [d], b: [d], c: [], d: []} with weights s-c 1, s-b 2, s-a 3, b-d 1, a-d 10, searched from s: after s is popped, c, b and a are lowered to 1, 2 and 3, and the last call loses b; the search then reports distance 13 for d with path [s, a, d] | every queued vertex is popped, so d gets distance 3 with path [s, b, d] | not executed | `LiteralCutTrace.LiteralCutLosesQueuedVertex` | `ShortestPath.Dijkstra` |

=== FILE: distance.dfy ===
/**
 * Path lengths as the source computes them: a float that starts out as
 * `float('inf')` for unreachable vertices and is otherwise a finite,
 * non-negative sum of edge weights. NaN never arises from non-negative
 * weights and is not modelled.
 */
module Distance {

  datatype Dist = Fin(r: real) | Inf

  /** Python's `<` on floats, with `inf` above every finite value and `inf < inf` false. */
  predicate Lt(a: Dist, b: Dist) {
    a.Fin? && (b.Inf? || a.r < b.r)
  }

  /** Python's `<=` on floats, the complement of `Lt` with arguments swapped. */
  predicate Le(a: Dist, b: Dist) {
    b.Inf? || (a.Fin? && a.r <= b.r)
  }

  /** Python's `d + w` for a finite weight `w`: `inf + w` stays `inf`. */
  function Add(d: Dist, w: real): (s: Dist)
    ensures s.Inf? <==> d.Inf?
    ensures 0.0 <= w ==> Le(d, s)
  {
    match d
    case Fin(x) => Fin(x + w)
    case Inf => Inf
  }

  predicate NonNeg(d: Dist) {
    d.Fin? ==> 0.0 <= d.r
  }
}

=== FILE: literal_cut_trace.dfy ===
/**
 * The heap calls of one search of `dijkstra_with_path` (function.py:134-156)
 * traced through the pairing heap as the code writes it, showing that the
 * literal detachment of `decrease_key` (function.py:49-52) can drop a vertex
 * that the search still counts as queued.
 */
module LiteralCutTrace {
  import opened Optional
  import opened Distance
  import opened PairingHeap

  /*
   * The heap calls `dijkstra_with_path` makes on the graph
   * {s: [c, b, a], a: [d], b: [d], c: [], d: []} (in that order) with edge
   * weights s-c 1, s-b 2, s-a 3, b-d 1 and a-d 10, for any five distinct
   * vertices s, a, b, c, d: insert every vertex, pop s, then lower c to 1,
   * b to 2 and a to 3. With the literal cut the last call makes b unreachable
   * while it is still queued. A later relaxation into b would merge it back
   * through `decrease_key`, but on this graph no vertex popped later lists b,
   * so b is never popped and the edge b-d never relaxed.
   */

  /** Inserting a key strictly above the root key makes the new leaf the root's first child. */
  lemma InsertBelowRoot<V>(h: Heap<V>, key: Dist, value: V, t: Tree<V>, cs: seq<Tree<V>>)
    requires Valid(h) && h.root == Some(t) && Lt(t.key, key) && cs == [Leaf(key, value)] + t.children
    ensures Insert(h, key, value).root == Some(Node(t.key, t.value, cs))
  {
  }

  lemma ConsFour<T>(a: T, b: T, c: T, d: T)
    ensures [a] + [b, c, d] == [a, b, c, d]
  {
  }

  lemma ConsThree<T>(a: T, b: T, c: T)
    ensures [a] + [b, c] == [a, b, c]
  {
  }

  lemma ForestThree<V>(c1: Tree<V>, c2: Tree<V>, c3: Tree<V>)
    ensures ForestElems([c1, c2, c3]) == Elems(c1) + Elems(c2) + Elems(c3)
  {
    assert [c1, c2, c3][1..] == [c2, c3];
    ForestTwo(c2, c3);
  }

  /** A leaf whose key is not above the other root becomes the root. */
  lemma LinkOntoLeaf<V>(x: Tree<V>, k: Dist, v: V)
    requires !Lt(x.key, k)
    ensures Link(x, Leaf(k, v)) == Node(k, v, [x])
  {
    assert [x] + [] == [x];
  }

  lemma FoldEqualLeaves<V>(k: Dist, a: V, b: V, c: V, d: V)
    ensures MergeChildren(None, [Leaf(k, a), Leaf(k, b), Leaf(k, c), Leaf(k, d)])
         == Some(Node(k, d, [Node(k, c, [Node(k, b, [Leaf(k, a)])])]))
  {
    var la, lb, lc, ld := Leaf(k, a), Leaf(k, b), Leaf(k, c), Leaf(k, d);
    var t1 := Node(k, b, [la]);
    var t2 := Node(k, c, [t1]);
    var t3 := Node(k, d, [t2]);
    LinkOntoLeaf(la, k, b);
    LinkOntoLeaf(t1, k, c);
    LinkOntoLeaf(t2, k, d);
    calc {
      MergeChildren(None, [la, lb, lc, ld]);
      { assert [la, lb, lc, ld][1..] == [lb, lc, ld]; }
      MergeChildren(Some(la), [lb, lc, ld]);
      { assert [lb, lc, ld][1..] == [lc, ld]; }
      MergeChildren(Some(t1), [lc, ld]);
      { assert [lc, ld][1..] == [ld]; }
      MergeChildren(Some(t2), [ld]);
      { assert [ld][1..] == []; }
      MergeChildren(Some(t3), []);
    }
  }

  /** The entries of a chain of single children. */
  lemma ChainElems<V>(k1: Dist, v1: V, k2: Dist, v2: V, k3: Dist, v3: V, k4: Dist, v4: V)
    ensures Elems(Node(k1, v1, [Node(k2, v2, [Node(k3, v3, [Leaf(k4, v4)])])]))
         == multiset{(k1, v1), (k2, v2), (k3, v3), (k4, v4)}
  {
    var n3 := Node(k3, v3, [Leaf(k4, v4)]);
    var n2 := Node(k2, v2, [n3]);
    ForestOne(Leaf(k4, v4));
    ForestOne(n3);
    ForestOne(n2);
    MultisetFour((k1, v1), (k2, v2), (k3, v3), (k4, v4));
  }

  /* The literal cut on the three shapes the sequence of search operations meets. */

  /** One step of the literal cut, at the first tree that holds the entry. */
  lemma {:induction false} CutAsWrittenStep<V>(ts: seq<Tree<V>>, e: Entry<V>)
    requires e in ForestElems(ts) && AllOrdered(ts)
    ensures var i := Holder(ts, e);
      && ((ts[i].key, ts[i].value) == e ==> CutForestAsWritten(ts, e) == (ts[i+1..], ts[i]))
      && ((ts[i].key, ts[i].value) != e ==>
            && e in ForestElems(ts[i].children) && AllOrdered(ts[i].children)
            && CutForestAsWritten(ts, e)
            == (ts[..i] + [Node(ts[i].key, ts[i].value, CutForestAsWritten(ts[i].children, e).0)] + ts[i+1..],
                CutForestAsWritten(ts[i].children, e).1))
  {
    var i := Holder(ts, e);
    SplitElems(ts, i);
    assert HeapOrdered(ts[i]);
  }

  /** The entry sits at the root of the first tree: the rest of the list stays. */
  lemma {:induction false} CutHead<V>(ts: seq<Tree<V>>, e: Entry<V>)
    requires |ts| > 0 && AllOrdered(ts) && e == (ts[0].key, ts[0].value)
    ensures e in ForestElems(ts)
    ensures CutForestAsWritten(ts, e) == (ts[1..], ts[0])
  {
    assert e in Elems(ts[0]);
    assert Holder(ts, e) == 0;
    CutAsWrittenStep(ts, e);
  }

  /** The entry sits at the root of the second tree: the first tree is dropped. */
  lemma {:induction false} CutSecond<V>(ts: seq<Tree<V>>, e: Entry<V>)
    requires |ts| > 1 && AllOrdered(ts) && e !in Elems(ts[0]) && e == (ts[1].key, ts[1].value)
    ensures e in ForestElems(ts)
    ensures CutForestAsWritten(ts, e) == (ts[2..], ts[1])
  {
    assert ts[1..][0] == ts[1];
    assert e in Elems(ts[1..][0]);
    assert Holder(ts[1..], e) == 0;
    assert Holder(ts, e) == 1;
    CutAsWrittenStep(ts, e);
  }

  /** The entry sits below the root of the first tree: the cut happens inside it. */
  lemma {:induction false} CutInsideHead<V>(ts: seq<Tree<V>>, e: Entry<V>)
    requires |ts| > 0 && AllOrdered(ts) && e in ForestElems(ts[0].children) && e != (ts[0].key, ts[0].value)
    ensures e in ForestElems(ts) && AllOrdered(ts[0].children)
    ensures CutForestAsWritten(ts, e).0 == [Node(ts[0].key, ts[0].value, CutForestAsWritten(ts[0].children, e).0)] + ts[1..]
    ensures CutForestAsWritten(ts, e).1 == CutForestAsWritten(ts[0].children, e).1
  {
    assert e in Elems(ts[0]);
    assert Holder(ts, e) == 0;
    CutAsWrittenStep(ts, e);
    ReplaceHead(ts, Node(ts[0].key, ts[0].value, CutForestAsWritten(ts[0].children, e).0));
  }

  lemma ReplaceHead<T>(s: seq<T>, x: T)
    requires |s| > 0
    ensures s[..0] + [x] + s[0+1..] == [x] + s[1..]
  {
    assert s[..0] == [];
  }

  /** The non-root case of the literal `decrease_key`, spelled out. */
  lemma {:induction false} CutAndMergeShape<V>(t: Tree<V>, e: Entry<V>, newKey: Dist)
    requires HeapOrdered(t) && e in ForestElems(t.children) && Lt(newKey, e.0)
    ensures CutAndMergeAsWritten(t, e, newKey)
         == Link(Node(t.key, t.value, CutForestAsWritten(t.children, e).0),
                 Node(newKey, e.1, CutForestAsWritten(t.children, e).1.children))
  {
  }

  /** The guard of the literal `decrease_key` passes and the entry is not at the root. */
  lemma {:induction false} DecreaseBelowRoot<V>(h: Heap<V>, value: V, newKey: Dist)
    requires Valid(h) && value in h.index && Lt(newKey, h.index[value])
    requires h.root.Some? && (h.root.value.key, h.root.value.value) != (h.index[value], value)
    ensures (h.index[value], value) in ForestElems(h.root.value.children)
    ensures DecreaseKeyAsWritten(h, value, newKey)
         == Heap(Some(CutAndMergeAsWritten(h.root.value, (h.index[value], value), newKey)), h.index[value := newKey])
  {
    IndexedInTree(h, value);
    BelowRoot(h.root.value, (h.index[value], value));
  }

  lemma ConsTwo<T>(a: T, b: T)
    ensures [a] + [b] == [a, b]
  {
  }

  lemma Singleton<T>(a: T)
    ensures [a] + [] == [a] && [a][1..] == []
  {
  }

  lemma DropTwo<T>(a: T, b: T, c: T)
    ensures [a, b, c][2..] == [c]
  {
  }

  /** Lowering the third node of a chain a, b, c, d: c is cut out with d and becomes the root. */
  lemma {:induction false} LowerInChain<V>(h: Heap<V>, a: V, b: V, c: V, d: V, top: Dist, k: Dist)
    requires Valid(h) && h.root == Some(Node(top, a, [Node(top, b, [Node(top, c, [Leaf(top, d)])])]))
    requires c in h.index && h.index[c] == top && Lt(k, top) && a != c && b != c
    ensures DecreaseKeyAsWritten(h, c, k).root == Some(Node(k, c, [Node(top, a, [Leaf(top, b)]), Leaf(top, d)]))
  {
    var e := (top, c);
    var n3 := Node(top, c, [Leaf(top, d)]);
    var n2 := Node(top, b, [n3]);
    var t := h.root.value;
    var rest := Node(top, a, [Leaf(top, b)]);
    var moved := Node(k, c, [Leaf(top, d)]);
    assert AllOrdered([n2]) by {
      assert HeapOrdered(t);
    }
    assert AllOrdered([n3]) by {
      assert HeapOrdered([n2][0]);
    }
    assert CutForestAsWritten([n2], e) == ([Leaf(top, b)], n3) by {
      ForestOne(n3);
      CutInsideHead([n2], e);
      CutHead([n3], e);
      Singleton(n3);
      Singleton(n2);
      Singleton(Leaf(top, b));
    }
    assert CutAndMergeAsWritten(t, e, k) == Link(rest, moved) by {
      CutAndMergeShape(t, e, k);
    }
    assert Link(rest, moved) == Node(k, c, [rest, Leaf(top, d)]) by {
      ConsTwo(rest, Leaf(top, d));
    }
    assert DecreaseKeyAsWritten(h, c, k).root == Some(CutAndMergeAsWritten(t, e, k)) by {
      DecreaseBelowRoot(h, c, k);
    }
  }

  /** Nothing is lost by that step, so the heap stays valid. */
  lemma {:induction false} LowerInChainValid<V>(h: Heap<V>, a: V, b: V, c: V, d: V, top: Dist, k: Dist)
    requires Valid(h) && h.root == Some(Node(top, a, [Node(top, b, [Node(top, c, [Leaf(top, d)])])]))
    requires c in h.index && h.index[c] == top && Lt(k, top) && a != c && b != c
    ensures Contents(DecreaseKeyAsWritten(h, c, k)) == multiset{(k, c), (top, a), (top, b), (top, d)}
    ensures Valid(DecreaseKeyAsWritten(h, c, k))
  {
    LowerInChain(h, a, b, c, d, top, k);
    ChainElems(top, a, top, b, top, c, top, d);
    BranchElems(k, c, top, a, top, b, top, d);
  }

  /** Lowering the only child of the first child: it is cut out and linked below the root as its first child. */
  lemma {:induction false} LowerGrandchild<V>(h: Heap<V>, a: V, b: V, c: V, d: V, top: Dist, k1: Dist, k2: Dist)
    requires Valid(h) && h.root == Some(Node(k1, c, [Node(top, a, [Leaf(top, b)]), Leaf(top, d)]))
    requires b in h.index && h.index[b] == top && Lt(k2, top) && Lt(k1, k2) && a != b
    ensures DecreaseKeyAsWritten(h, b, k2).root == Some(Node(k1, c, [Leaf(k2, b), Leaf(top, a), Leaf(top, d)]))
  {
    var e := (top, b);
    var n1 := Node(top, a, [Leaf(top, b)]);
    var ts := [n1, Leaf(top, d)];
    var t := h.root.value;
    var rest := Node(k1, c, [Leaf(top, a), Leaf(top, d)]);
    var moved := Node(k2, b, []);
    assert AllOrdered(ts) && AllOrdered([Leaf(top, b)]) by {
      assert HeapOrdered(t);
    }
    assert CutForestAsWritten(ts, e) == ([Leaf(top, a), Leaf(top, d)], Leaf(top, b)) by {
      ForestOne(Leaf(top, b));
      CutInsideHead(ts, e);
      CutHead([Leaf(top, b)], e);
      Singleton(Leaf(top, b));
      ConsTwo(Leaf(top, a), Leaf(top, d));
      assert ts[1..] == [Leaf(top, d)];
    }
    assert CutAndMergeAsWritten(t, e, k2) == Link(rest, moved) by {
      CutAndMergeShape(t, e, k2);
    }
    assert Link(rest, moved) == Node(k1, c, [Leaf(k2, b), Leaf(top, a), Leaf(top, d)]) by {
      ConsThree(moved, Leaf(top, a), Leaf(top, d));
    }
    assert DecreaseKeyAsWritten(h, b, k2).root == Some(CutAndMergeAsWritten(t, e, k2)) by {
      DecreaseBelowRoot(h, b, k2);
    }
  }

  /** Nothing is lost by that step either, so the heap stays valid. */
  lemma {:induction false} LowerGrandchildValid<V>(h: Heap<V>, a: V, b: V, c: V, d: V, top: Dist, k1: Dist, k2: Dist)
    requires Valid(h) && h.root == Some(Node(k1, c, [Node(top, a, [Leaf(top, b)]), Leaf(top, d)]))
    requires b in h.index && h.index[b] == top && Lt(k2, top) && Lt(k1, k2) && a != b
    ensures Contents(DecreaseKeyAsWritten(h, b, k2)) == multiset{(k1, c), (k2, b), (top, a), (top, d)}
    ensures Valid(DecreaseKeyAsWritten(h, b, k2))
  {
    LowerGrandchild(h, a, b, c, d, top, k1, k2);
    BranchElems(k1, c, top, a, top, b, top, d);
    ThreeLeavesElems(k1, c, k2, b, top, a, top, d);
  }

  /**
   * Lowering the second child with the literal cut: the parent's child list
   * becomes the node's later siblings, so the first child b is dropped.
   */
  lemma {:induction false} LowerSecondChild<V>(h: Heap<V>, a: V, b: V, c: V, d: V, top: Dist, k1: Dist, k2: Dist, k3: Dist)
    requires Valid(h) && h.root == Some(Node(k1, c, [Leaf(k2, b), Leaf(top, a), Leaf(top, d)]))
    requires a in h.index && h.index[a] == top && Lt(k3, top) && Lt(k1, k3) && a != b
    ensures DecreaseKeyAsWritten(h, a, k3).root == Some(Node(k1, c, [Leaf(k3, a), Leaf(top, d)]))
    ensures Contents(DecreaseKeyAsWritten(h, a, k3)) == multiset{(k1, c), (k3, a), (top, d)}
  {
    var e := (top, a);
    var ts := [Leaf(k2, b), Leaf(top, a), Leaf(top, d)];
    var t := h.root.value;
    var rest := Node(k1, c, [Leaf(top, d)]);
    var moved := Node(k3, a, []);
    assert CutForestAsWritten(ts, e) == ([Leaf(top, d)], Leaf(top, a)) by {
      CutSecond(ts, e);
      DropTwo(Leaf(k2, b), Leaf(top, a), Leaf(top, d));
    }
    assert CutAndMergeAsWritten(t, e, k3) == Link(rest, moved) by {
      CutAndMergeShape(t, e, k3);
    }
    assert Link(rest, moved) == Node(k1, c, [Leaf(k3, a), Leaf(top, d)]) by {
      ConsTwo(moved, Leaf(top, d));
    }
    assert DecreaseKeyAsWritten(h, a, k3).root == Some(CutAndMergeAsWritten(t, e, k3)) by {
      DecreaseBelowRoot(h, a, k3);
    }
    TwoLeavesElems(k1, c, k3, a, top, d);
  }

  lemma MultisetFour<T>(a: T, b: T, c: T, d: T)
    ensures multiset{a} + (multiset{b} + multiset{c} + multiset{d}) == multiset{a, b, c, d}
    ensures multiset{a} + (multiset{b} + multiset{c}) + multiset{d} == multiset{a, b, c, d}
  {
  }

  lemma ThreeLeavesElems<V>(k0: Dist, v0: V, k1: Dist, v1: V, k2: Dist, v2: V, k3: Dist, v3: V)
    ensures Elems(Node(k0, v0, [Leaf(k1, v1), Leaf(k2, v2), Leaf(k3, v3)]))
         == multiset{(k0, v0), (k1, v1), (k2, v2), (k3, v3)}
  {
    ForestThree(Leaf(k1, v1), Leaf(k2, v2), Leaf(k3, v3));
    MultisetFour((k0, v0), (k1, v1), (k2, v2), (k3, v3));
  }

  lemma BranchElems<V>(k0: Dist, v0: V, k1: Dist, v1: V, k2: Dist, v2: V, k3: Dist, v3: V)
    ensures Elems(Node(k0, v0, [Node(k1, v1, [Leaf(k2, v2)]), Leaf(k3, v3)]))
         == multiset{(k0, v0), (k1, v1), (k2, v2), (k3, v3)}
  {
    ForestOne(Leaf(k2, v2));
    ForestTwo(Node(k1, v1, [Leaf(k2, v2)]), Leaf(k3, v3));
    MultisetFour((k0, v0), (k1, v1), (k2, v2), (k3, v3));
  }

  lemma SameValueMap<K, W>(a: K, b: K, c: K, d: K, x: W)
    ensures var m := map[a := x, b := x, c := x, d := x];
      a in m && b in m && c in m && d in m && m[a] == x && m[b] == x && m[c] == x && m[d] == x
  {
  }

  lemma UpdateElsewhere<K, W>(m: map<K, W>, k: K, x: W, j: K)
    requires j in m && j != k
    ensures j in m[k := x] && m[k := x][j] == m[j]
  {
  }

  /** The vertices s, a, b, c, d of the search, in insertion order. */
  datatype Vertices<V> = Vertices(s: V, a: V, b: V, c: V, d: V)

  predicate Distinct<V(==)>(x: Vertices<V>) {
    && x.s != x.a && x.s != x.b && x.s != x.c && x.s != x.d
    && x.a != x.b && x.a != x.c && x.a != x.d
    && x.b != x.c && x.b != x.d
    && x.c != x.d
  }

  lemma DropFirst<K, W>(s: K, a: K, b: K, c: K, d: K, x0: W, x: W)
    requires s != a && s != b && s != c && s != d
    ensures map[s := x0, a := x, b := x, c := x, d := x] - {s} == map[a := x, b := x, c := x, d := x]
  {
    var m, q := map[s := x0, a := x, b := x, c := x, d := x] - {s}, map[a := x, b := x, c := x, d := x];
    assert m.Keys == q.Keys;
  }

  /** s queued at 0. */
  function QueuedS<V(==)>(x: Vertices<V>): (h: Heap<V>)
    ensures Valid(h)
    ensures h.root == Some(Leaf(Fin(0.0), x.s))
    ensures h.index == map[x.s := Fin(0.0)]
  {
    Insert(Empty<V>(), Fin(0.0), x.s)
  }

  /** a queued at infinity below s. */
  function QueuedA<V(==)>(x: Vertices<V>): (h: Heap<V>)
    ensures Valid(h)
    ensures h.root == Some(Node(Fin(0.0), x.s, [Leaf(Inf, x.a)]))
    ensures h.index == map[x.s := Fin(0.0), x.a := Inf]
  {
    Singleton(Leaf(Inf, x.a));
    InsertBelowRoot(QueuedS(x), Inf, x.a, Leaf(Fin(0.0), x.s), [Leaf(Inf, x.a)]);
    Insert(QueuedS(x), Inf, x.a)
  }

  /** b queued at infinity. */
  function QueuedB<V(==)>(x: Vertices<V>): (h: Heap<V>)
    ensures Valid(h)
    ensures h.root == Some(Node(Fin(0.0), x.s, [Leaf(Inf, x.b), Leaf(Inf, x.a)]))
    ensures h.index == map[x.s := Fin(0.0), x.a := Inf, x.b := Inf]
  {
    ConsTwo(Leaf(Inf, x.b), Leaf(Inf, x.a));
    InsertBelowRoot(QueuedA(x), Inf, x.b, Node(Fin(0.0), x.s, [Leaf(Inf, x.a)]), [Leaf(Inf, x.b), Leaf(Inf, x.a)]);
    Insert(QueuedA(x), Inf, x.b)
  }

  /** c queued at infinity. */
  function QueuedC<V(==)>(x: Vertices<V>): (h: Heap<V>)
    ensures Valid(h)
    ensures h.root == Some(Node(Fin(0.0), x.s, [Leaf(Inf, x.c), Leaf(Inf, x.b), Leaf(Inf, x.a)]))
    ensures h.index == map[x.s := Fin(0.0), x.a := Inf, x.b := Inf, x.c := Inf]
  {
    ConsThree(Leaf(Inf, x.c), Leaf(Inf, x.b), Leaf(Inf, x.a));
    InsertBelowRoot(QueuedB(x), Inf, x.c, Node(Fin(0.0), x.s, [Leaf(Inf, x.b), Leaf(Inf, x.a)]),
                    [Leaf(Inf, x.c), Leaf(Inf, x.b), Leaf(Inf, x.a)]);
    Insert(QueuedB(x), Inf, x.c)
  }

  /** Every vertex queued: s at 0 and the others at infinity, the later ones first among the children. */
  function Queued<V(==)>(x: Vertices<V>): (h: Heap<V>)
    ensures Valid(h)
    ensures h.root == Some(Node(Fin(0.0), x.s, [Leaf(Inf, x.d), Leaf(Inf, x.c), Leaf(Inf, x.b), Leaf(Inf, x.a)]))
    ensures h.index == map[x.s := Fin(0.0), x.a := Inf, x.b := Inf, x.c := Inf, x.d := Inf]
  {
    ConsFour(Leaf(Inf, x.d), Leaf(Inf, x.c), Leaf(Inf, x.b), Leaf(Inf, x.a));
    InsertBelowRoot(QueuedC(x), Inf, x.d, Node(Fin(0.0), x.s, [Leaf(Inf, x.c), Leaf(Inf, x.b), Leaf(Inf, x.a)]),
                    [Leaf(Inf, x.d), Leaf(Inf, x.c), Leaf(Inf, x.b), Leaf(Inf, x.a)]);
    Insert(QueuedC(x), Inf, x.d)
  }

  /** s popped: the fold of its children leaves the chain a, b, c, d. */
  function Popped<V(==)>(x: Vertices<V>): (h: Heap<V>)
    requires Distinct(x)
    ensures Valid(h)
    ensures h.root == Some(Node(Inf, x.a, [Node(Inf, x.b, [Node(Inf, x.c, [Leaf(Inf, x.d)])])]))
    ensures h.index == map[x.a := Inf, x.b := Inf, x.c := Inf, x.d := Inf]
  {
    FoldEqualLeaves(Inf, x.d, x.c, x.b, x.a);
    DropFirst(x.s, x.a, x.b, x.c, x.d, Fin(0.0), Inf);
    DeleteMin(Queued(x)).1
  }

  /** c lowered to 1: nothing is lost yet. */
  function LoweredC<V(==)>(x: Vertices<V>): (h: Heap<V>)
    requires Distinct(x)
    ensures Valid(h)
    ensures h.root == Some(Node(Fin(1.0), x.c, [Node(Inf, x.a, [Leaf(Inf, x.b)]), Leaf(Inf, x.d)]))
    ensures h.index == Popped(x).index[x.c := Fin(1.0)]
  {
    SameValueMap(x.a, x.b, x.c, x.d, Inf);
    LowerInChain(Popped(x), x.a, x.b, x.c, x.d, Inf, Fin(1.0));
    LowerInChainValid(Popped(x), x.a, x.b, x.c, x.d, Inf, Fin(1.0));
    DecreaseKeyAsWritten(Popped(x), x.c, Fin(1.0))
  }

  /** b lowered to 2: b is the first child on its way down, so again nothing is lost. */
  function LoweredB<V(==)>(x: Vertices<V>): (h: Heap<V>)
    requires Distinct(x)
    ensures Valid(h)
    ensures h.root == Some(Node(Fin(1.0), x.c, [Leaf(Fin(2.0), x.b), Leaf(Inf, x.a), Leaf(Inf, x.d)]))
    ensures h.index == LoweredC(x).index[x.b := Fin(2.0)]
    ensures Contents(h) == multiset{(Fin(1.0), x.c), (Fin(2.0), x.b), (Inf, x.a), (Inf, x.d)}
  {
    assert x.b in LoweredC(x).index && LoweredC(x).index[x.b] == Inf by {
      SameValueMap(x.a, x.b, x.c, x.d, Inf);
      UpdateElsewhere(Popped(x).index, x.c, Fin(1.0), x.b);
    }
    LowerGrandchild(LoweredC(x), x.a, x.b, x.c, x.d, Inf, Fin(1.0), Fin(2.0));
    LowerGrandchildValid(LoweredC(x), x.a, x.b, x.c, x.d, Inf, Fin(1.0), Fin(2.0));
    DecreaseKeyAsWritten(LoweredC(x), x.b, Fin(2.0))
  }

  /** a lowered to 3, with the literal cut: a is the second child, so b, before it, is dropped. */
  function LoweredA<V(==)>(x: Vertices<V>): (h: Heap<V>)
    requires Distinct(x)
    ensures h.root == Some(Node(Fin(1.0), x.c, [Leaf(Fin(3.0), x.a), Leaf(Inf, x.d)]))
    ensures h.index == LoweredB(x).index[x.a := Fin(3.0)]
    ensures Contents(h) == multiset{(Fin(1.0), x.c), (Fin(3.0), x.a), (Inf, x.d)}
  {
    assert x.a in LoweredB(x).index && LoweredB(x).index[x.a] == Inf by {
      SameValueMap(x.a, x.b, x.c, x.d, Inf);
      UpdateElsewhere(Popped(x).index, x.c, Fin(1.0), x.a);
      UpdateElsewhere(LoweredC(x).index, x.b, Fin(2.0), x.a);
    }
    LowerSecondChild(LoweredB(x), x.a, x.b, x.c, x.d, Inf, Fin(1.0), Fin(2.0), Fin(3.0));
    DecreaseKeyAsWritten(LoweredB(x), x.a, Fin(3.0))
  }

  /**
   * With the literal cut, lowering a to 3 loses b: b is still indexed, so
   * it counts as queued, but no entry for it is left in the heap, so
   * `delete_min` cannot return it unless a later `decrease_key` of b merges
   * it back.
   */
  lemma LiteralCutLosesQueuedVertex<V>(x: Vertices<V>)
    requires Distinct(x)
    ensures (Fin(2.0), x.b) in Contents(LoweredB(x))
    ensures LoweredA(x) == DecreaseKeyAsWritten(LoweredB(x), x.a, Fin(3.0))
    ensures x.b in LoweredA(x).index
    ensures forall k :: (k, x.b) !in Contents(LoweredA(x))
  {
    assert x.b in LoweredA(x).index by {
      UpdateElsewhere(LoweredB(x).index, x.a, Fin(3.0), x.b);
    }
    forall k
      ensures (k, x.b) !in Contents(LoweredA(x))
    {
      NotInThree((k, x.b), (Fin(1.0), x.c), (Fin(3.0), x.a), (Inf, x.d));
    }
  }

  lemma NotInThree<T>(e: T, a: T, b: T, c: T)
    requires e != a && e != b && e != c
    ensures e !in multiset{a, b, c}
  {
  }

  /** The same loss with s, a, b, c, d numbered 0 to 4. */
  lemma LiteralCutLosesVertexTwo()
    ensures (Fin(2.0), 2) in Contents(LoweredB(Vertices(0, 1, 2, 3, 4)))
    ensures 2 in LoweredA(Vertices(0, 1, 2, 3, 4)).index
    ensures forall k :: (k, 2) !in Contents(LoweredA(Vertices(0, 1, 2, 3, 4)))
  {
    LiteralCutLosesQueuedVertex(Vertices(0, 1, 2, 3, 4));
  }

  /** With the intended cut the same call keeps b queued. */
  lemma IntendedCutKeepsQueuedVertex<V>(x: Vertices<V>)
    requires Distinct(x)
    ensures (Fin(2.0), x.b) in Contents(DecreaseKey(LoweredB(x), x.a, Fin(3.0)))
  {
    var h := LoweredB(x);
    assert x.a in h.index && h.index[x.a] == Inf by {
      SameValueMap(x.a, x.b, x.c, x.d, Inf);
      UpdateElsewhere(Popped(x).index, x.c, Fin(1.0), x.a);
      UpdateElsewhere(LoweredC(x).index, x.b, Fin(2.0), x.a);
    }
    DecreaseKeyKeepsOthers(h, x.a, Fin(3.0), (Fin(2.0), x.b));
  }
}

=== FILE: nearest_destination.dfy ===
/**
 * The selection of the nearest destination in 2masjid_heap.py: after the
 * search from the origin vertex, the destination cities are scanned in
 * order, and a city replaces the current choice when it has a distance that
 * is strictly smaller than the best so far; its path is then rebuilt from
 * the predecessor table. The same loop appears twice, in `run_search` and in
 * `create_and_show_map`.
 */
module NearestDestination {
  import opened Optional
  import opened Distance
  import opened PathReconstruction

  /** The current choice: the city picked so far, its distance and its path. */
  datatype Choice<V> = Choice(nearest: Option<V>, distance: Dist, path: seq<V>)

  /**
   * What the scan needs of its inputs: a ranked predecessor table in which
   * the path lookup of every city with a finite distance succeeds.
   */
  ghost predicate Reconstructible<V>(cities: seq<V>, distances: map<V, Dist>, prev: map<V, Option<V>>, origin: V, rank: map<V, nat>) {
    && RankedBy(prev, rank)
    && forall i | 0 <= i < |cities| && cities[i] in distances && distances[cities[i]].Fin? :: Closed(prev, origin, cities[i])
  }

  /** City `k` has the least distance among the first `n` cities, and every earlier city is strictly farther. */
  ghost predicate FirstNearestCity<V>(cities: seq<V>, n: int, distances: map<V, Dist>, k: int)
    requires 0 <= n <= |cities|
  {
    && 0 <= k < n
    && cities[k] in distances && distances[cities[k]].Fin?
    && (forall j | 0 <= j < n && cities[j] in distances :: Le(distances[cities[k]], distances[cities[j]]))
    && (forall j | 0 <= j < k && cities[j] in distances :: Lt(distances[cities[k]], distances[cities[j]]))
  }

  /** The first nearest city is unique, so the characterisation pins down the choice. */
  lemma FirstNearestCityUnique<V>(cities: seq<V>, n: int, distances: map<V, Dist>, k1: int, k2: int)
    requires 0 <= n <= |cities|
    requires FirstNearestCity(cities, n, distances, k1) && FirstNearestCity(cities, n, distances, k2)
    ensures k1 == k2
  {
    assert distances[cities[k1]] == distances[cities[k2]];
  }

  /** No city among the first `n` has a finite distance. */
  ghost predicate NoneReachable<V>(cities: seq<V>, n: int, distances: map<V, Dist>)
    requires 0 <= n <= |cities|
  {
    forall j | 0 <= j < n && cities[j] in distances :: distances[cities[j]] == Inf
  }

  /**
   * One pass of the scan. The new best distance is the lesser of the best so
   * far and the city's distance; on a tie the earlier choice stays, and a
   * changed choice names the city, at its own distance, with its rebuilt path.
   */
  function Consider<V(==)>(acc: Choice<V>, city: V, distances: map<V, Dist>, prev: map<V, Option<V>>, origin: V, ghost rank: map<V, nat>): (r: Choice<V>)
    requires RankedBy(prev, rank)
    requires city in distances && distances[city].Fin? ==> Closed(prev, origin, city)
    ensures Le(r.distance, acc.distance)
    ensures city in distances ==> Le(r.distance, distances[city])
    ensures r.distance == acc.distance ==> r == acc
    ensures r != acc ==> city in distances && r.nearest == Some(city) && r.distance == distances[city]
    ensures r != acc ==> r.path == ReconstructPath(prev, origin, city, rank)
  {
    if city in distances && Lt(distances[city], acc.distance) then
      Choice(Some(city), distances[city], ReconstructPath(prev, origin, city, rank))
    else acc
  }

  /**
   * The choice after scanning the first `n` cities, starting from no city at
   * distance `inf` with the empty path: nothing is chosen exactly when no
   * scanned city has a finite distance; otherwise the choice is the first
   * scanned city of least distance, with that distance and its rebuilt path.
   */
  function ScanUpTo<V(==)>(cities: seq<V>, n: nat, distances: map<V, Dist>, prev: map<V, Option<V>>, origin: V, ghost rank: map<V, nat>): (r: Choice<V>)
    requires n <= |cities|
    requires Reconstructible(cities, distances, prev, origin, rank)
    ensures r.nearest.None? <==> NoneReachable(cities, n, distances)
    ensures r.nearest.None? ==> r.distance == Inf && r.path == []
    ensures r.nearest.Some? ==> exists k ::
      && FirstNearestCity(cities, n, distances, k)
      && r.nearest.value == cities[k]
      && r.distance == distances[cities[k]]
      && r.path == ReconstructPath(prev, origin, cities[k], rank)
    decreases n
  {
    if n == 0 then Choice(None, Inf, [])
    else
      var acc := ScanUpTo(cities, n - 1, distances, prev, origin, rank);
      ScanStep(cities, n - 1, distances, prev, origin, rank, acc);
      Consider(acc, cities[n - 1], distances, prev, origin, rank)
  }

  /** The step from `i` to `i + 1` scanned cities keeps the characterisation of the choice. */
  lemma ScanStep<V>(cities: seq<V>, i: nat, distances: map<V, Dist>, prev: map<V, Option<V>>, origin: V, rank: map<V, nat>, acc: Choice<V>)
    requires i < |cities|
    requires Reconstructible(cities, distances, prev, origin, rank)
    requires acc.nearest.None? <==> NoneReachable(cities, i, distances)
    requires acc.nearest.None? ==> acc.distance == Inf && acc.path == []
    requires acc.nearest.Some? ==> exists k ::
      && FirstNearestCity(cities, i, distances, k)
      && acc.nearest.value == cities[k]
      && acc.distance == distances[cities[k]]
      && acc.path == ReconstructPath(prev, origin, cities[k], rank)
    ensures var r := Consider(acc, cities[i], distances, prev, origin, rank);
      && (r.nearest.None? <==> NoneReachable(cities, i + 1, distances))
      && (r.nearest.None? ==> r.distance == Inf && r.path == [])
      && (r.nearest.Some? ==> exists k ::
        && FirstNearestCity(cities, i + 1, distances, k)
        && r.nearest.value == cities[k]
        && r.distance == distances[cities[k]]
        && r.path == ReconstructPath(prev, origin, cities[k], rank))
  {
    var city := cities[i];
    var r := Consider(acc, city, distances, prev, origin, rank);
    if city in distances && Lt(distances[city], acc.distance) {
      assert FirstNearestCity(cities, i + 1, distances, i) by {
        if acc.nearest.Some? {
          var k :| FirstNearestCity(cities, i, distances, k) && acc.distance == distances[cities[k]];
        }
      }
    } else if acc.nearest.Some? {
      var k :| && FirstNearestCity(cities, i, distances, k)
               && acc.nearest.value == cities[k]
               && acc.distance == distances[cities[k]]
               && acc.path == ReconstructPath(prev, origin, cities[k], rank);
      assert FirstNearestCity(cities, i + 1, distances, k);
    }
  }

  /**
   * The selection loop of `run_search` (2masjid_heap.py:30-37) over all the
   * destination cities.
   */
  function NearestMosque<V(==)>(cities: seq<V>, distances: map<V, Dist>, prev: map<V, Option<V>>, origin: V, ghost rank: map<V, nat>): (r: Choice<V>)
    requires Reconstructible(cities, distances, prev, origin, rank)
    ensures r.nearest.None? <==> NoneReachable(cities, |cities|, distances)
    ensures r.nearest.None? ==> r.distance == Inf && r.path == []
    ensures r.nearest.Some? ==> exists k ::
      && FirstNearestCity(cities, |cities|, distances, k)
      && r.nearest.value == cities[k]
      && r.distance == distances[cities[k]]
      && r.path == ReconstructPath(prev, origin, cities[k], rank)
  {
    ScanUpTo(cities, |cities|, distances, prev, origin, rank)
  }

  /**
   * The copy of the selection loop in `create_and_show_map`
   * (2masjid_heap.py:120-129), as a loop: it makes the same choice, with the
   * same distance and path, as the one in `run_search`.
   */
  method ChooseNearestMosque<V(==)>(cities: seq<V>, distances: map<V, Dist>, prev: map<V, Option<V>>, origin: V, ghost rank: map<V, nat>)
    returns (nearest: Option<V>, minDistance: Dist, pathToNearest: seq<V>)
    requires Reconstructible(cities, distances, prev, origin, rank)
    ensures nearest.None? <==> NoneReachable(cities, |cities|, distances)
    ensures Choice(nearest, minDistance, pathToNearest) == NearestMosque(cities, distances, prev, origin, rank)
  {
    minDistance, nearest, pathToNearest := Inf, None, [];
    for i := 0 to |cities|
      invariant Choice(nearest, minDistance, pathToNearest) == ScanUpTo(cities, i, distances, prev, origin, rank)
    {
      var city := cities[i];
      if city in distances && Lt(distances[city], minDistance) {
        minDistance := distances[city];
        nearest := Some(city);
        pathToNearest := ReconstructPath(prev, origin, city, rank);
      }
    }
  }
}

=== FILE: nearest_node.dfy ===
/**
 * `find_closest_node` of function.py: the graph vertex whose coordinates
 * are nearest to a query position, scanning the locations in order and
 * keeping the first one at the least distance.
 *
 * The haversine great-circle distance is a parameter `measure` here; the
 * locations table is the ordered sequence of its `(vertex, coordinates)`
 * items.
 */
module NearestNode {
  import opened Optional
  import opened Distance

  /**
   * Among the first `n` locations, the one at `k` is nearest to `query`
   * and every earlier one is strictly farther.
   */
  ghost predicate FirstNearest<V, C>(locations: seq<(V, C)>, n: int, query: C, measure: (C, C) -> real, k: int)
    requires 0 <= n <= |locations|
  {
    && 0 <= k < n
    && (forall j | 0 <= j < n :: measure(query, locations[k].1) <= measure(query, locations[j].1))
    && (forall j | 0 <= j < k :: measure(query, locations[k].1) < measure(query, locations[j].1))
  }

  /** The first nearest location is unique, so it pins down the result. */
  lemma FirstNearestUnique<V, C>(locations: seq<(V, C)>, n: int, query: C, measure: (C, C) -> real, k1: int, k2: int)
    requires 0 <= n <= |locations|
    requires FirstNearest(locations, n, query, measure, k1) && FirstNearest(locations, n, query, measure, k2)
    ensures k1 == k2
  {
    assert measure(query, locations[k1].1) == measure(query, locations[k2].1);
  }

  /**
   * `find_closest_node(locations, current_location)` (function.py:122-132):
   * `(None, inf)` when there are no locations; otherwise the first location
   * at the least distance from the query, with that distance.
   */
  method FindClosestNode<V, C>(locations: seq<(V, C)>, query: C, measure: (C, C) -> real)
    returns (closest: Option<V>, minDistance: Dist)
    ensures closest.None? <==> |locations| == 0
    ensures closest.None? ==> minDistance == Inf
    ensures closest.Some? ==> exists k ::
      && FirstNearest(locations, |locations|, query, measure, k)
      && closest.value == locations[k].0
      && minDistance == Fin(measure(query, locations[k].1))
  {
    closest, minDistance := None, Inf;
    ghost var k := -1;
    for i := 0 to |locations|
      invariant closest.None? <==> i == 0
      invariant closest.None? ==> minDistance == Inf
      invariant closest.Some? ==>
        && FirstNearest(locations, i, query, measure, k)
        && closest.value == locations[k].0
        && minDistance == Fin(measure(query, locations[k].1))
    {
      var (node, coords) := locations[i];
      var distance := measure(query, coords);
      if Lt(Fin(distance), minDistance) {
        closest, minDistance := Some(node), Fin(distance);
        k := i;
      }
    }
  }
}

=== FILE: optional.dfy ===
/** The optional-value datatype the model uses wherever the source returns or stores `None`. */
module Optional {

  datatype Option<+T> = None | Some(value: T)
}

=== FILE: pairing_heap.dfy ===
/**
 * The pairing heap of function.py as an immutable value.
 *
 * A `PairingHeapNode` with its `child` link and `sibling` chain becomes a
 * `Tree` whose `children` sequence lists the child chain first to last. The
 * `parent` back-link is not stored: it is implied by the position of a
 * subtree. `node_map`, which sends a value to its node, is abstracted to
 * `index`, which sends a value to that node's current key; a node is
 * identified by the (key, value) entry it carries.
 *
 * Everything is stated against `Contents`, the multiset of (key, value)
 * entries reachable from the root.
 */
module PairingHeap {
  import opened Optional
  import opened Distance

  type Entry<V> = (Dist, V)

  datatype Tree<V> = Node(key: Dist, value: V, children: seq<Tree<V>>)

  datatype Heap<V> = Heap(root: Option<Tree<V>>, index: map<V, Dist>)

  /* ---------------------------------------------------------------------- */
  /* Abstraction                                                             */
  /* ---------------------------------------------------------------------- */

  function Elems<V(==)>(t: Tree<V>): multiset<Entry<V>>
    decreases t
  {
    multiset{(t.key, t.value)} + ForestElems(t.children)
  }

  function ForestElems<V(==)>(ts: seq<Tree<V>>): multiset<Entry<V>>
    decreases ts
  {
    if |ts| == 0 then multiset{} else Elems(ts[0]) + ForestElems(ts[1..])
  }

  function OptElems<V(==)>(t: Option<Tree<V>>): multiset<Entry<V>> {
    match t
    case None => multiset{}
    case Some(n) => Elems(n)
  }

  /** The entries of all active nodes reachable from the root. */
  function Contents<V(==)>(h: Heap<V>): multiset<Entry<V>> {
    OptElems(h.root)
  }

  /** Heap order: a node's key is at most the key of every entry below it. */
  ghost predicate HeapOrdered<V>(t: Tree<V>)
    decreases t
  {
    && (forall e | e in ForestElems(t.children) :: Le(t.key, e.0))
    && AllOrdered(t.children)
  }

  ghost predicate AllOrdered<V>(ts: seq<Tree<V>>)
    decreases ts
  {
    forall i | 0 <= i < |ts| :: HeapOrdered(ts[i])
  }

  ghost predicate OptOrdered<V>(t: Option<Tree<V>>) {
    t.Some? ==> HeapOrdered(t.value)
  }

  /**
   * The representation invariant: the tree is heap-ordered and every indexed
   * value names an entry that is still reachable from the root (so the node
   * it names is active).
   */
  ghost predicate Valid<V>(h: Heap<V>) {
    OptOrdered(h.root) && Indexed(h.index, Contents(h))
  }

  /** Every indexed value names an entry of `m` carrying the indexed key. */
  ghost predicate Indexed<V>(index: map<V, Dist>, m: multiset<Entry<V>>) {
    forall v | v in index :: (index[v], v) in m
  }

  /* ---------------------------------------------------------------------- */
  /* Facts about the abstraction                                             */
  /* ---------------------------------------------------------------------- */

  lemma {:induction false} ForestElemsAppend<V>(a: seq<Tree<V>>, b: seq<Tree<V>>)
    ensures ForestElems(a + b) == ForestElems(a) + ForestElems(b)
    decreases |a|
  {
    if |a| == 0 {
      assert a + b == b;
    } else {
      assert (a + b)[0] == a[0];
      assert (a + b)[1..] == a[1..] + b;
      ForestElemsAppend(a[1..], b);
    }
  }

  lemma ForestElemsCons<V>(t: Tree<V>, ts: seq<Tree<V>>)
    ensures ForestElems([t] + ts) == Elems(t) + ForestElems(ts)
  {
    assert ([t] + ts)[1..] == ts;
  }

  lemma SeqSplit<V>(ts: seq<Tree<V>>, i: nat, x: Tree<V>)
    requires i < |ts|
    ensures ts == ts[..i] + ([ts[i]] + ts[i+1..])
    ensures ts[..i] + [x] + ts[i+1..] == ts[..i] + ([x] + ts[i+1..])
    ensures ts == ts[..i+1] + ts[i+1..]
  {
  }

  /** The entries of a forest split around its subtree at position `i`. */
  lemma SplitElems<V>(ts: seq<Tree<V>>, i: nat)
    requires i < |ts|
    ensures ForestElems(ts) == ForestElems(ts[..i]) + Elems(ts[i]) + ForestElems(ts[i+1..])
  {
    SeqSplit(ts, i, ts[i]);
    ForestElemsAppend(ts[..i], [ts[i]] + ts[i+1..]);
    ForestElemsCons(ts[i], ts[i+1..]);
  }

  /** Replacing the subtree at position `i` by `x` replaces exactly its entries. */
  lemma ReplaceElems<V>(ts: seq<Tree<V>>, i: nat, x: Tree<V>)
    requires i < |ts|
    ensures ForestElems(ts[..i] + [x] + ts[i+1..])
         == ForestElems(ts[..i]) + Elems(x) + ForestElems(ts[i+1..])
  {
    SeqSplit(ts, i, x);
    ForestElemsAppend(ts[..i], [x] + ts[i+1..]);
    ForestElemsCons(x, ts[i+1..]);
  }

  lemma AllOrderedAppend<V>(a: seq<Tree<V>>, b: seq<Tree<V>>)
    ensures AllOrdered(a + b) <==> AllOrdered(a) && AllOrdered(b)
  {
    if AllOrdered(a + b) {
      forall i | 0 <= i < |a| ensures HeapOrdered(a[i]) {
        assert a[i] == (a + b)[i];
      }
      forall i | 0 <= i < |b| ensures HeapOrdered(b[i]) {
        assert b[i] == (a + b)[|a| + i];
      }
    }
    if AllOrdered(a) && AllOrdered(b) {
      forall i | 0 <= i < |a + b| ensures HeapOrdered((a + b)[i]) {
        if i < |a| {
          assert (a + b)[i] == a[i];
        } else {
          assert (a + b)[i] == b[i - |a|];
        }
      }
    }
  }

  lemma AllOrderedUncons<V>(ts: seq<Tree<V>>)
    requires |ts| > 0 && AllOrdered(ts)
    ensures HeapOrdered(ts[0]) && AllOrdered(ts[1..])
  {
    assert ts == [ts[0]] + ts[1..];
    AllOrderedCons(ts[0], ts[1..]);
  }

  lemma AllOrderedCons<V>(x: Tree<V>, ts: seq<Tree<V>>)
    ensures AllOrdered([x] + ts) <==> HeapOrdered(x) && AllOrdered(ts)
  {
    assert [x][0] == x;
    AllOrderedAppend([x], ts);
  }

  /** Heap order of every subtree survives splicing one out or replacing it. */
  lemma AllOrderedSplice<V>(ts: seq<Tree<V>>, i: nat, x: Tree<V>)
    requires i < |ts|
    ensures AllOrdered(ts) ==> AllOrdered(ts[..i]) && AllOrdered(ts[i+1..])
    ensures AllOrdered(ts) ==> AllOrdered(ts[..i] + ts[i+1..])
    ensures AllOrdered(ts) && HeapOrdered(x) ==> AllOrdered(ts[..i] + [x] + ts[i+1..])
  {
    SeqSplit(ts, i, x);
    AllOrderedAppend(ts[..i], [ts[i]] + ts[i+1..]);
    AllOrderedCons(ts[i], ts[i+1..]);
    AllOrderedAppend(ts[..i], ts[i+1..]);
    AllOrderedCons(x, ts[i+1..]);
    AllOrderedAppend(ts[..i], [x] + ts[i+1..]);
  }

  /** A heap-ordered tree keeps its minimum at the root. */
  lemma RootIsMin<V>(t: Tree<V>)
    requires HeapOrdered(t)
    ensures forall e | e in Elems(t) :: Le(t.key, e.0)
  {
  }

  /** A heap is empty exactly when it holds no entries. */
  lemma EmptyIffNoEntries<V>(h: Heap<V>)
    ensures h.root.None? <==> Contents(h) == multiset{}
  {
    if h.root.Some? {
      assert (h.root.value.key, h.root.value.value) in Contents(h);
    }
  }

  lemma IndexedInsert<V>(index: map<V, Dist>, m: multiset<Entry<V>>, key: Dist, value: V)
    requires Indexed(index, m)
    ensures Indexed(index[value := key], m + multiset{(key, value)})
  {
  }

  lemma IndexedRemove<V>(index: map<V, Dist>, m: multiset<Entry<V>>, e: Entry<V>)
    requires Indexed(index, m)
    ensures Indexed(index - {e.1}, m - multiset{e})
  {
    forall v | v in index - {e.1} ensures (index[v], v) in m - multiset{e} {
      assert (index[v], v) != e;
    }
  }

  lemma IndexedRekey<V>(index: map<V, Dist>, m: multiset<Entry<V>>, value: V, key: Dist, m': multiset<Entry<V>>)
    requires Indexed(index, m) && value in index
    requires m' + multiset{(index[value], value)} == m + multiset{(key, value)}
    ensures Indexed(index[value := key], m')
  {
    var o, n := (index[value], value), (key, value);
    forall v | v in index && v != value ensures (index[v], v) in m' {
      var x := (index[v], v);
      assert (m' + multiset{o})[x] == (m + multiset{n})[x];
      assert x != o && x != n;
    }
    assert (m' + multiset{o})[n] == (m + multiset{n})[n];
  }

  lemma IndexedInTree<V>(h: Heap<V>, value: V)
    requires Valid(h) && value in h.index
    ensures h.root.Some? && (h.index[value], value) in Elems(h.root.value)
  {
  }

  lemma BelowRoot<V>(t: Tree<V>, e: Entry<V>)
    requires e in Elems(t) && e != (t.key, t.value)
    ensures e in ForestElems(t.children)
  {
  }

  /** A node without children. */
  function Leaf<V>(key: Dist, value: V): (t: Tree<V>)
    ensures HeapOrdered(t) && Elems(t) == multiset{(key, value)}
  {
    Node(key, value, [])
  }

  /** Lowering a heap-ordered tree's root key keeps it heap-ordered. */
  lemma RekeyOrdered<V>(t: Tree<V>, key: Dist)
    requires HeapOrdered(t) && Le(key, t.key)
    ensures HeapOrdered(Node(key, t.value, t.children))
  {
  }

  /** Dropping entries below a heap-ordered node keeps it heap-ordered. */
  lemma ShrinkOrdered<V>(t: Tree<V>, cs: seq<Tree<V>>, gone: multiset<Entry<V>>)
    requires HeapOrdered(t) && AllOrdered(cs)
    requires ForestElems(cs) + gone == ForestElems(t.children)
    ensures HeapOrdered(Node(t.key, t.value, cs))
  {
    forall e | e in ForestElems(cs) ensures Le(t.key, e.0) {
      assert e in ForestElems(t.children);
    }
  }

  /* ---------------------------------------------------------------------- */
  /* merge (function.py:20-35)                                               */
  /* ---------------------------------------------------------------------- */

  /**
   * Links two non-empty heaps: the one with the strictly smaller root key
   * stays the root and the other becomes its first child; on equal keys the
   * second heap wins.
   */
  function Link<V(==)>(a: Tree<V>, b: Tree<V>): (r: Tree<V>)
    ensures Elems(r) == Elems(a) + Elems(b)
    ensures Le(r.key, a.key) && Le(r.key, b.key)
    ensures Lt(a.key, b.key) ==> r.key == a.key && r.value == a.value && r.children == [b] + a.children
    ensures !Lt(a.key, b.key) ==> r.key == b.key && r.value == b.value && r.children == [a] + b.children
  {
    if Lt(a.key, b.key) then
      ForestElemsCons(b, a.children);
      Node(a.key, a.value, [b] + a.children)
    else
      ForestElemsCons(a, b.children);
      Node(b.key, b.value, [a] + b.children)
  }

  lemma LinkOrdered<V>(a: Tree<V>, b: Tree<V>)
    requires HeapOrdered(a) && HeapOrdered(b)
    ensures HeapOrdered(Link(a, b))
  {
    var r := Link(a, b);
    if Lt(a.key, b.key) {
      AllOrderedCons(b, a.children);
      RootIsMin(b);
    } else {
      AllOrderedCons(a, b.children);
      RootIsMin(a);
    }
  }

  /** `merge(heap1, heap2)`: an absent side yields the other side unchanged. */
  function Merge<V(==)>(a: Option<Tree<V>>, b: Option<Tree<V>>): (r: Option<Tree<V>>)
    ensures OptElems(r) == OptElems(a) + OptElems(b)
    ensures OptOrdered(a) && OptOrdered(b) ==> OptOrdered(r)
    ensures r.None? <==> a.None? && b.None?
    ensures a.Some? && b.Some? ==> r == Some(Link(a.value, b.value))
  {
    if a.None? then b
    else if b.None? then a
    else
      assert OptOrdered(a) && OptOrdered(b) ==> OptOrdered(Some(Link(a.value, b.value))) by {
        if OptOrdered(a) && OptOrdered(b) {
          LinkOrdered(a.value, b.value);
        }
      }
      Some(Link(a.value, b.value))
  }

  /**
   * The child recombination of `delete_min` (function.py:70-77): a single
   * left-to-right fold `acc := merge(acc, child)`, not the two-pass scheme.
   */
  function MergeChildren<V(==)>(acc: Option<Tree<V>>, cs: seq<Tree<V>>): (r: Option<Tree<V>>)
    ensures OptElems(r) == OptElems(acc) + ForestElems(cs)
    ensures r.None? <==> acc.None? && |cs| == 0
    decreases |cs|
  {
    if |cs| == 0 then acc
    else
      var acc' := Merge(acc, Some(cs[0]));
      assert OptElems(acc') == OptElems(acc) + Elems(cs[0]);
      assert ForestElems(cs) == Elems(cs[0]) + ForestElems(cs[1..]);
      MergeChildren(acc', cs[1..])
  }

  /** The fold keeps heap order: merging heap-ordered trees one by one yields a heap-ordered tree. */
  lemma {:induction false} MergeChildrenOrdered<V>(acc: Option<Tree<V>>, cs: seq<Tree<V>>)
    requires OptOrdered(acc) && AllOrdered(cs)
    ensures OptOrdered(MergeChildren(acc, cs))
    decreases |cs|
  {
    if |cs| > 0 {
      AllOrderedUncons(cs);
      MergeChildrenOrdered(Merge(acc, Some(cs[0])), cs[1..]);
    }
  }

  /* ---------------------------------------------------------------------- */
  /* Cutting a subtree out for decrease_key (function.py:47-54)              */
  /* ---------------------------------------------------------------------- */

  /** Position of the first subtree of `ts` that holds entry `e`. */
  function Holder<V(==)>(ts: seq<Tree<V>>, e: Entry<V>): (i: nat)
    requires e in ForestElems(ts)
    ensures i < |ts| && e in Elems(ts[i])
    decreases |ts|
  {
    if e in Elems(ts[0]) then 0 else 1 + Holder(ts[1..], e)
  }

  /**
   * Detaches the first node (in pre-order) carrying entry `e` from the
   * forest `ts`, splicing it out of its sibling list wherever it sits.
   * Returns the remaining forest and the detached subtree.
   *
   * This is the intended cut. The source instead sets the parent's `child`
   * field to the node's `sibling`, which drops every earlier sibling; that
   * literal update is modelled by `CutForestAsWritten`.
   */
  function CutForest<V(==)>(ts: seq<Tree<V>>, e: Entry<V>): (r: (seq<Tree<V>>, Tree<V>))
    requires e in ForestElems(ts) && AllOrdered(ts)
    ensures (r.1.key, r.1.value) == e
    ensures ForestElems(r.0) + Elems(r.1) == ForestElems(ts)
    ensures AllOrdered(r.0) && HeapOrdered(r.1)
    decreases |ForestElems(ts)|
  {
    var i := Holder(ts, e);
    var c := ts[i];
    SplitElems(ts, i);
    AllOrderedSplice(ts, i, c);
    if (c.key, c.value) == e then
      ForestElemsAppend(ts[..i], ts[i+1..]);
      (ts[..i] + ts[i+1..], c)
    else
      var (cs, sub) := CutForest(c.children, e);
      var c' := Node(c.key, c.value, cs);
      ShrinkOrdered(c, cs, Elems(sub));
      ReplaceElems(ts, i, c');
      AllOrderedSplice(ts, i, c');
      (ts[..i] + [c'] + ts[i+1..], sub)
  }

  /**
   * The detachment as function.py:49-52 writes it: once the node is found at
   * position `i` of its parent's child list, the parent's child list becomes
   * the node's sibling chain `ts[i+1..]`, so `ts[..i]` is no longer reachable.
   */
  function CutForestAsWritten<V(==)>(ts: seq<Tree<V>>, e: Entry<V>): (r: (seq<Tree<V>>, Tree<V>))
    requires e in ForestElems(ts) && AllOrdered(ts)
    ensures (r.1.key, r.1.value) == e
    ensures ForestElems(r.0) + Elems(r.1) <= ForestElems(ts)
    ensures AllOrdered(r.0) && HeapOrdered(r.1)
    decreases |ForestElems(ts)|
  {
    var i := Holder(ts, e);
    var c := ts[i];
    SplitElems(ts, i);
    AllOrderedSplice(ts, i, c);
    if (c.key, c.value) == e then
      (ts[i+1..], c)
    else
      var (cs, sub) := CutForestAsWritten(c.children, e);
      var c' := Node(c.key, c.value, cs);
      var gone := ForestElems(c.children) - ForestElems(cs);
      ShrinkOrdered(c, cs, gone);
      ReplaceElems(ts, i, c');
      AllOrderedSplice(ts, i, c');
      (ts[..i] + [c'] + ts[i+1..], sub)
  }

  /* ---------------------------------------------------------------------- */
  /* PairingHeap operations                                                  */
  /* ---------------------------------------------------------------------- */

  /** `PairingHeap()`: no root, empty `node_map`. */
  function Empty<V(==)>(): (h: Heap<V>)
    ensures Valid(h) && Contents(h) == multiset{} && h.index == map[]
  {
    Heap(None, map[])
  }

  /** `is_empty` (function.py:17-18). */
  predicate IsEmpty<V(==)>(h: Heap<V>)
    ensures IsEmpty(h) <==> Contents(h) == multiset{}
  {
    EmptyIffNoEntries(h);
    h.root.None?
  }

  /** `insert` (function.py:37-40): merge a fresh singleton into the root and index it. */
  function Insert<V(==)>(h: Heap<V>, key: Dist, value: V): (r: Heap<V>)
    requires Valid(h)
    ensures Valid(r)
    ensures Contents(r) == Contents(h) + multiset{(key, value)}
    ensures r.index == h.index[value := key]
  {
    IndexedInsert(h.index, Contents(h), key, value);
    Heap(Merge(h.root, Some(Leaf(key, value))), h.index[value := key])
  }

  /** `find_min` (function.py:92-95). */
  function FindMin<V(==)>(h: Heap<V>): (r: Option<Entry<V>>)
    requires Valid(h)
    ensures r.None? <==> Contents(h) == multiset{}
    ensures r.Some? ==> r.value in Contents(h) && forall e | e in Contents(h) :: Le(r.value.0, e.0)
  {
    EmptyIffNoEntries(h);
    match h.root
    case None => None
    case Some(t) => RootIsMin(t); Some((t.key, t.value))
  }

  /**
   * `delete_min` (function.py:57-80): returns the root entry (or `None` on an
   * empty heap) together with the heap that remains once the root is
   * deactivated, its value popped from the index and its children folded
   * back together.
   */
  function DeleteMin<V(==)>(h: Heap<V>): (r: (Option<Entry<V>>, Heap<V>))
    requires Valid(h)
    ensures Valid(r.1)
    ensures r.0.None? <==> Contents(h) == multiset{}
    ensures r.0.None? ==> r.1 == h
    ensures r.0.Some? ==>
      && r.0.value in Contents(h)
      && (forall e | e in Contents(h) :: Le(r.0.value.0, e.0))
      && Contents(r.1) == Contents(h) - multiset{r.0.value}
      && r.1.index == h.index - {r.0.value.1}
  {
    EmptyIffNoEntries(h);
    match h.root
    case None => (None, h)
    case Some(t) =>
      RootIsMin(t);
      IndexedRemove(h.index, Contents(h), (t.key, t.value));
      assert Contents(h) - multiset{(t.key, t.value)} == ForestElems(t.children);
      MergeChildrenOrdered(None, t.children);
      var rest := if |t.children| == 0 then None else MergeChildren(None, t.children);
      (Some((t.key, t.value)), Heap(rest, h.index - {t.value}))
  }

  /** The root case of `decrease_key`: the root simply takes the lower key. */
  function RekeyRoot<V(==)>(t: Tree<V>, newKey: Dist): (r: Tree<V>)
    requires HeapOrdered(t) && Lt(newKey, t.key)
    ensures HeapOrdered(r)
    ensures Elems(r) + multiset{(t.key, t.value)} == Elems(t) + multiset{(newKey, t.value)}
  {
    RekeyOrdered(t, newKey);
    Node(newKey, t.value, t.children)
  }

  /**
   * The non-root case of `decrease_key`: the node carrying `e` is cut out of
   * `t` with its subtree, takes `newKey`, and is merged back as the second
   * argument of `merge(self.root, node)`.
   */
  function CutAndMerge<V(==)>(t: Tree<V>, e: Entry<V>, newKey: Dist): (r: Tree<V>)
    requires HeapOrdered(t) && e in ForestElems(t.children) && Lt(newKey, e.0)
    ensures HeapOrdered(r)
    ensures Elems(r) + multiset{e} == Elems(t) + multiset{(newKey, e.1)}
  {
    var (cs, sub) := CutForest(t.children, e);
    var rest := Node(t.key, t.value, cs);
    ShrinkOrdered(t, cs, Elems(sub));
    var moved := RekeyRoot(sub, newKey);
    LinkOrdered(rest, moved);
    Link(rest, moved)
  }

  /** The non-root case as function.py:49-55 writes it, detaching with `CutForestAsWritten`. */
  function CutAndMergeAsWritten<V(==)>(t: Tree<V>, e: Entry<V>, newKey: Dist): (r: Tree<V>)
    requires HeapOrdered(t) && e in ForestElems(t.children) && Lt(newKey, e.0)
    ensures HeapOrdered(r)
    ensures (newKey, e.1) in Elems(r)
    ensures Elems(r) + multiset{e} <= Elems(t) + multiset{(newKey, e.1)}
  {
    var (cs, sub) := CutForestAsWritten(t.children, e);
    var rest := Node(t.key, t.value, cs);
    ShrinkOrdered(t, cs, ForestElems(t.children) - ForestElems(cs));
    var moved := RekeyRoot(sub, newKey);
    LinkOrdered(rest, moved);
    Link(rest, moved)
  }

  /**
   * `decrease_key` (function.py:42-55) with the intended cut: a no-op unless
   * `value` is indexed and `newKey` is strictly below its current key;
   * otherwise the node takes the new key and, when it is not the root, is
   * spliced out of its sibling list and merged back into the root.
   */
  function DecreaseKey<V(==)>(h: Heap<V>, value: V, newKey: Dist): (r: Heap<V>)
    requires Valid(h)
    ensures Valid(r)
    ensures value !in h.index || !Lt(newKey, h.index[value]) ==> r == h
    ensures value in h.index && Lt(newKey, h.index[value]) ==>
      && Contents(r) + multiset{(h.index[value], value)} == Contents(h) + multiset{(newKey, value)}
      && r.index == h.index[value := newKey]
  {
    if value !in h.index || !Lt(newKey, h.index[value]) then h
    else Rekey(h, value, newKey)
  }

  /** The effective branch of `decrease_key` (function.py:45-55), once the guard has passed. */
  function Rekey<V(==)>(h: Heap<V>, value: V, newKey: Dist): (r: Heap<V>)
    requires Valid(h) && value in h.index && Lt(newKey, h.index[value])
    ensures Valid(r)
    ensures Contents(r) + multiset{(h.index[value], value)} == Contents(h) + multiset{(newKey, value)}
    ensures r.index == h.index[value := newKey]
  {
      var e := (h.index[value], value);
      IndexedInTree(h, value);
      var t := h.root.value;
      if (t.key, t.value) == e then
        var t' := RekeyRoot(t, newKey);
        IndexedRekey(h.index, Contents(h), value, newKey, Elems(t'));
        Heap(Some(t'), h.index[value := newKey])
      else
        BelowRoot(t, e);
        var t' := CutAndMerge(t, e, newKey);
        IndexedRekey(h.index, Contents(h), value, newKey, Elems(t'));
        Heap(Some(t'), h.index[value := newKey])
  }

  /**
   * `decrease_key` exactly as function.py:42-55 writes it, with the literal
   * `node.parent.child = node.sibling`. Entries can only be lost, never
   * invented, and heap order survives; the index is not kept consistent,
   * except when no entry happens to be lost (the heap keeps its size).
   */
  function DecreaseKeyAsWritten<V(==)>(h: Heap<V>, value: V, newKey: Dist): (r: Heap<V>)
    requires Valid(h)
    ensures OptOrdered(r.root)
    ensures value !in h.index || !Lt(newKey, h.index[value]) ==> r == h
    ensures value in h.index && Lt(newKey, h.index[value]) ==>
      && Contents(r) + multiset{(h.index[value], value)} <= Contents(h) + multiset{(newKey, value)}
      && (newKey, value) in Contents(r)
      && r.index == h.index[value := newKey]
    ensures value in h.index && Lt(newKey, h.index[value]) && |Contents(r)| == |Contents(h)| ==> Valid(r)
  {
    if value !in h.index || !Lt(newKey, h.index[value]) then h
    else
      var e := (h.index[value], value);
      assert e in Contents(h);
      var t := h.root.value;
      assert (t.key, t.value) != e ==> e in ForestElems(t.children);
      var t' := if (t.key, t.value) == e then RekeyRoot(t, newKey) else CutAndMergeAsWritten(t, e, newKey);
      var r := Heap(Some(t'), h.index[value := newKey]);
      assert |Contents(r)| == |Contents(h)| ==> Valid(r) by {
        if |Contents(r)| == |Contents(h)| {
          SubMultisetSameSize(Contents(r) + multiset{e}, Contents(h) + multiset{(newKey, value)});
          IndexedRekey(h.index, Contents(h), value, newKey, Contents(r));
        }
      }
      r
  }

  /* ---------------------------------------------------------------------- */
  /* Properties relating the operations                                      */
  /* ---------------------------------------------------------------------- */

  /** `find_min` reports exactly the entry that `delete_min` removes. */
  lemma FindMinIsDeleteMin<V>(h: Heap<V>)
    requires Valid(h)
    ensures FindMin(h) == DeleteMin(h).0
  {
  }

  /** Inserting and then deleting the minimum of an empty heap gives back the entry and an empty heap. */
  lemma InsertThenDeleteMin<V>(key: Dist, value: V)
    ensures DeleteMin(Insert(Empty<V>(), key, value)) == (Some((key, value)), Empty<V>())
  {
  }

  /** A sub-multiset of the same size is the whole multiset. */
  lemma SubMultisetSameSize<T>(a: multiset<T>, b: multiset<T>)
    requires a <= b && |a| == |b|
    ensures a == b
  {
    var d := b - a;
    assert a + d == b;
  }

  lemma ForestElemsEmpty<V>(ts: seq<Tree<V>>)
    ensures ForestElems(ts) == multiset{} <==> |ts| == 0
  {
    if |ts| > 0 {
      assert (ts[0].key, ts[0].value) in ForestElems(ts);
    }
  }

  /**
   * The literal `node.parent.child = node.sibling` of function.py:49-52
   * keeps every entry of the parent's child list (the detached node's
   * subtree plus what stays attached) exactly when the node is the first
   * child.
   */
  lemma LiteralDetachKeepsEntriesIffFirst<V>(ts: seq<Tree<V>>, i: nat)
    requires i < |ts|
    ensures ForestElems(ts[i+1..]) + Elems(ts[i]) == ForestElems(ts) <==> i == 0
  {
    SplitElems(ts, i);
    ForestElemsEmpty(ts[..i]);
    if i != 0 {
      var x :| x in ForestElems(ts[..i]);
      assert (ForestElems(ts[i+1..]) + Elems(ts[i]))[x] < ForestElems(ts)[x];
    }
  }

  /** The heap of the counterexample below: root 0 with children [1, 2]. */
  function ExampleHeap(): (h: Heap<int>)
    ensures Valid(h)
  {
    Insert(Insert(Insert(Empty<int>(), Fin(0.0), 0), Fin(2.0), 2), Fin(1.0), 1)
  }

  lemma ExampleHeapShape()
    ensures ExampleHeap().root == Some(Node(Fin(0.0), 0, [Leaf(Fin(1.0), 1), Leaf(Fin(2.0), 2)]))
    ensures ExampleHeap().index == map[0 := Fin(0.0), 2 := Fin(2.0), 1 := Fin(1.0)]
  {
    var l0, l1, l2 := Leaf(Fin(0.0), 0), Leaf(Fin(1.0), 1), Leaf(Fin(2.0), 2);
    var h1 := Insert(Empty<int>(), Fin(0.0), 0);
    assert h1.root == Some(l0);
    var h2 := Insert(h1, Fin(2.0), 2);
    assert Link(l0, l2) == Node(Fin(0.0), 0, [l2]);
    assert h2.root == Some(Node(Fin(0.0), 0, [l2]));
    assert Link(Node(Fin(0.0), 0, [l2]), l1) == Node(Fin(0.0), 0, [l1] + [l2]);
    assert [l1] + [l2] == [l1, l2];
  }

  lemma ExampleCutAsWritten()
    ensures CutForestAsWritten([Leaf(Fin(1.0), 1), Leaf(Fin(2.0), 2)], (Fin(2.0), 2)) == ([], Leaf(Fin(2.0), 2))
  {
    var ts := [Leaf(Fin(1.0), 1), Leaf(Fin(2.0), 2)];
    assert Elems(ts[0]) == multiset{(Fin(1.0), 1)};
    assert (Fin(2.0), 2) !in Elems(ts[0]);
    assert ts[1..] == [Leaf(Fin(2.0), 2)];
    assert Holder(ts, (Fin(2.0), 2)) == 1;
    assert ts[2..] == [];
  }

  lemma ExampleContents()
    ensures Contents(ExampleHeap()) == multiset{(Fin(0.0), 0), (Fin(1.0), 1), (Fin(2.0), 2)}
    ensures ExampleHeap().index[2] == Fin(2.0)
  {
    ExampleHeapShape();
    TwoLeavesElems(Fin(0.0), 0, Fin(1.0), 1, Fin(2.0), 2);
  }

  lemma ForestOne<V>(c: Tree<V>)
    ensures ForestElems([c]) == Elems(c)
  {
    assert [c][1..] == [];
  }

  lemma ForestTwo<V>(c1: Tree<V>, c2: Tree<V>)
    ensures ForestElems([c1, c2]) == Elems(c1) + Elems(c2)
  {
    assert [c1, c2][1..] == [c2];
    ForestOne(c2);
  }

  lemma TwoLeavesElems<V>(k0: Dist, v0: V, k1: Dist, v1: V, k2: Dist, v2: V)
    ensures Elems(Node(k0, v0, [Leaf(k1, v1), Leaf(k2, v2)])) == multiset{(k0, v0), (k1, v1), (k2, v2)}
  {
    ForestTwo(Leaf(k1, v1), Leaf(k2, v2));
    MultisetThree((k0, v0), (k1, v1), (k2, v2));
  }

  lemma MultisetThree<T>(a: T, b: T, c: T)
    ensures multiset{a} + (multiset{b} + multiset{c}) == multiset{a, b, c}
  {
  }

  lemma ExampleCutAndMergeAsWritten()
    ensures CutAndMergeAsWritten(Node(Fin(0.0), 0, [Leaf(Fin(1.0), 1), Leaf(Fin(2.0), 2)]), (Fin(2.0), 2), Fin(0.5))
         == Node(Fin(0.0), 0, [Node(Fin(0.5), 2, [])])
  {
    ExampleCutAsWritten();
    assert Link(Node(Fin(0.0), 0, []), Node(Fin(0.5), 2, [])) == Node(Fin(0.0), 0, [Node(Fin(0.5), 2, [])]);
  }

  lemma ExampleDecreaseAsWritten()
    ensures DecreaseKeyAsWritten(ExampleHeap(), 2, Fin(0.5)).root
         == Some(Node(Fin(0.0), 0, [Node(Fin(0.5), 2, [])]))
  {
    var h := ExampleHeap();
    ExampleHeapShape();
    var t := h.root.value;
    assert t == Node(Fin(0.0), 0, [Leaf(Fin(1.0), 1), Leaf(Fin(2.0), 2)]);
    assert h.index[2] == Fin(2.0) && Lt(Fin(0.5), Fin(2.0));
    assert (t.key, t.value) != (Fin(2.0), 2);
    ExampleCutAndMergeAsWritten();
  }

  /**
   * A sequence of operations on which the literal detachment loses an entry: insert
   * (0, 0), (2, 2) and (1, 1), giving a root 0 with children [1, 2], then
   * lower the key of 2 (the second child) to 0.5. The source makes the
   * earlier sibling 1 unreachable.
   */
  lemma DecreaseKeyAsWrittenLosesEntry()
    ensures (Fin(1.0), 1) in Contents(ExampleHeap())
    ensures (Fin(1.0), 1) !in Contents(DecreaseKeyAsWritten(ExampleHeap(), 2, Fin(0.5)))
  {
    ExampleContents();
    ExampleDecreaseContentsAsWritten();
  }

  lemma OneChildElems<V>(k0: Dist, v0: V, k1: Dist, v1: V)
    ensures Elems(Node(k0, v0, [Node(k1, v1, [])])) == multiset{(k0, v0), (k1, v1)}
  {
    var c := Node(k1, v1, []);
    assert [c][1..] == [];
    assert Elems(c) == multiset{(k1, v1)};
    assert ForestElems([c]) == Elems(c);
  }

  lemma ExampleDecreaseContentsAsWritten()
    ensures Contents(DecreaseKeyAsWritten(ExampleHeap(), 2, Fin(0.5))) == multiset{(Fin(0.0), 0), (Fin(0.5), 2)}
  {
    ExampleDecreaseAsWritten();
    OneChildElems(Fin(0.0), 0, Fin(0.5), 2);
  }

  /** On the same sequence of operations the intended cut keeps the earlier sibling. */
  lemma DecreaseKeyKeepsEntry()
    ensures (Fin(1.0), 1) in Contents(DecreaseKey(ExampleHeap(), 2, Fin(0.5)))
  {
    ExampleContents();
    var h := ExampleHeap();
    var r := DecreaseKey(h, 2, Fin(0.5));
    assert (Contents(r) + multiset{(Fin(2.0), 2)})[(Fin(1.0), 1)] == (Contents(h) + multiset{(Fin(0.5), 2)})[(Fin(1.0), 1)];
  }

  /** The intended `decrease_key` keeps every entry of every other value. */
  lemma DecreaseKeyKeepsOthers<V>(h: Heap<V>, value: V, newKey: Dist, e: Entry<V>)
    requires Valid(h) && e in Contents(h) && e.1 != value
    ensures e in Contents(DecreaseKey(h, value, newKey))
  {
    var r := DecreaseKey(h, value, newKey);
    if value in h.index && Lt(newKey, h.index[value]) {
      assert (Contents(r) + multiset{(h.index[value], value)})[e] == (Contents(h) + multiset{(newKey, value)})[e];
    }
  }
}

=== FILE: path_reconstruction.dfy ===
/**
 * `reconstruct_path` of function.py: walks the predecessor table backwards
 * from `end` until it reaches `start`, and returns the vertices in forward
 * order, or the empty sequence when a `None` predecessor is met first.
 *
 * The source loops forever on a predecessor cycle that avoids `start`. The
 * model instead asks for a `rank` that every predecessor link strictly
 * lowers; the search supplies one (the order in which it settles vertices).
 */
module PathReconstruction {
  import opened Optional

  /** Following a predecessor link always moves to a vertex of strictly lower rank. */
  ghost predicate RankedBy<V>(prev: map<V, Option<V>>, rank: map<V, nat>) {
    forall v | v in prev && prev[v].Some? ::
      v in rank && prev[v].value in rank && rank[prev[v].value] < rank[v]
  }

  /**
   * Every lookup `previous[current]` of the walk finds its key: `end` and
   * every predecessor that is not `start` are keys of the table (a missing
   * key raises `KeyError` in the source).
   */
  ghost predicate Closed<V>(prev: map<V, Option<V>>, start: V, end: V) {
    && (end == start || end in prev)
    && forall v | v in prev && prev[v].Some? :: prev[v].value == start || prev[v].value in prev
  }

  /** `p` runs from `start` to `end`, each vertex being the recorded predecessor of the next. */
  ghost predicate IsChain<V>(prev: map<V, Option<V>>, p: seq<V>, start: V, end: V) {
    && |p| > 0
    && p[0] == start
    && p[|p| - 1] == end
    && forall i | 1 <= i < |p| :: p[i] in prev && prev[p[i]] == Some(p[i - 1])
  }

  /** The backward walk; `None` when a missing predecessor breaks the chain. */
  function Walk<V(==)>(prev: map<V, Option<V>>, start: V, cur: V, ghost rank: map<V, nat>): (p: Option<seq<V>>)
    requires Closed(prev, start, cur) && RankedBy(prev, rank)
    ensures p.Some? ==> IsChain(prev, p.value, start, cur)
    ensures p.Some? ==> forall i | 0 < i < |p.value| :: p.value[i] != start
    decreases if cur in rank then rank[cur] + 1 else 0
  {
    if cur == start then Some([start])
    else
      match prev[cur]
      case None => None
      case Some(u) =>
        match Walk(prev, start, u, rank)
        case None => None
        case Some(p) => Some(p + [cur])
  }

  /**
   * `reconstruct_path(previous, start, end)` (function.py:159-169): the
   * forward path from `start` to `end`, `[start]` when they coincide, and
   * `[]` when no chain of predecessors links them.
   */
  function ReconstructPath<V(==)>(prev: map<V, Option<V>>, start: V, end: V, ghost rank: map<V, nat>): (path: seq<V>)
    requires Closed(prev, start, end) && RankedBy(prev, rank)
    ensures start == end ==> path == [start]
    ensures end != start && prev[end] == None ==> path == []
    ensures path != [] ==> IsChain(prev, path, start, end)
    ensures forall i | 0 < i < |path| :: path[i] != start
  {
    match Walk(prev, start, end, rank)
    case None => []
    case Some(p) => p
  }

  /** A chain that exists is found: the walk follows it back from its last vertex. */
  lemma {:induction false} WalkFindsChain<V>(prev: map<V, Option<V>>, p: seq<V>, start: V, end: V, rank: map<V, nat>)
    requires Closed(prev, start, end) && RankedBy(prev, rank)
    requires IsChain(prev, p, start, end)
    ensures Walk(prev, start, end, rank).Some?
    decreases |p|
  {
    if end != start {
      var n := |p|;
      assert n >= 2;
      var u := p[n - 2];
      assert prev[end] == Some(u);
      assert IsChain(prev, p[..n - 1], start, u);
      WalkFindsChain(prev, p[..n - 1], start, u, rank);
    }
  }

  /** The empty path means exactly that no predecessor chain links `start` to `end`. */
  lemma EmptyIffNoChain<V>(prev: map<V, Option<V>>, start: V, end: V, rank: map<V, nat>)
    requires Closed(prev, start, end) && RankedBy(prev, rank)
    ensures ReconstructPath(prev, start, end, rank) == [] <==> !exists p :: IsChain(prev, p, start, end)
  {
    if p :| IsChain(prev, p, start, end) {
      WalkFindsChain(prev, p, start, end, rank);
    }
  }
}

=== FILE: route.dfy ===
/**
 * The route search behind the "Find" button of 2masjid_heap.py
 * (`run_search`): snap the query position to the closest graph vertex, run
 * the shortest-path search from it, then pick the nearest destination city
 * and rebuild its path. Reading the input fields, printing and the map
 * display are left out.
 */
module Route {
  import opened Optional
  import opened Distance
  import opened PathReconstruction
  import opened NearestNode
  import opened ShortestPath
  import opened NearestDestination

  /** Every neighbour listed in `graph` is itself a vertex of it. */
  ghost predicate EdgesInside<V>(graph: map<V, seq<V>>) {
    forall u, v | u in graph && v in graph[u] :: v in graph
  }

  /**
   * City `c` is listed at some position before which every destination city
   * that a walk from `source` reaches weighs strictly more than `d` on that
   * walk: the rule that on a tie the earliest listed city is kept.
   */
  ghost predicate EarlierFarther<V(!new)>(graph: map<V, seq<V>>, w: (V, V) -> Weight, cities: seq<V>, source: V, c: V, d: Dist) {
    exists k | 0 <= k < |cities| && cities[k] == c ::
      forall j, p | 0 <= j < k && WalkFromTo(graph, p, source, cities[j]) :: Lt(d, Fin(WalkWeight(w, p)))
  }

  /** The vertices named in the locations table. */
  ghost function Located<V, C>(locations: seq<(V, C)>): (s: set<V>)
    ensures forall i | 0 <= i < |locations| :: locations[i].0 in s
    ensures forall v | v in s :: exists i :: 0 <= i < |locations| && locations[i].0 == v
  {
    set i | 0 <= i < |locations| :: locations[i].0
  }

  /** The path of every reachable destination city can be rebuilt from the search result. */
  lemma CitiesReconstructible<V>(graph: map<V, seq<V>>, source: V, w: (V, V) -> Weight,
                            dist: map<V, Dist>, prev: map<V, Option<V>>, rank: map<V, nat>, cities: seq<V>)
    requires EdgesInside(graph)
    requires dist.Keys == graph.Keys + {source} && prev.Keys == graph.Keys
    requires dist[source] == Fin(0.0)
    requires RelaxedFrom(graph, w, dist, graph.Keys)
    requires Tight(graph, w, dist, prev, graph.Keys)
    requires PrevIffFinite(source, dist, prev)
    requires RankedBy(prev, rank)
    ensures Reconstructible(cities, dist, prev, source, rank)
  {
    forall i | 0 <= i < |cities| && cities[i] in dist && dist[cities[i]].Fin?
      ensures Closed(prev, source, cities[i])
    {
      ShortestPaths(graph, source, w, dist, prev, rank, cities[i]);
    }
  }

  /** Every walk from the source to a destination city weighs at least that city's distance. */
  lemma WalksToCitiesBounded<V>(graph: map<V, seq<V>>, source: V, w: (V, V) -> Weight,
                            dist: map<V, Dist>, prev: map<V, Option<V>>, rank: map<V, nat>, cities: seq<V>)
    requires EdgesInside(graph)
    requires dist.Keys == graph.Keys + {source} && prev.Keys == graph.Keys
    requires dist[source] == Fin(0.0)
    requires RelaxedFrom(graph, w, dist, graph.Keys)
    requires Tight(graph, w, dist, prev, graph.Keys)
    requires PrevIffFinite(source, dist, prev)
    requires RankedBy(prev, rank)
    ensures forall i, p | 0 <= i < |cities| && WalkFromTo(graph, p, source, cities[i]) :: cities[i] in dist
    ensures forall i, p | 0 <= i < |cities| && WalkFromTo(graph, p, source, cities[i]) ::
      cities[i] in dist && Le(dist[cities[i]], Fin(WalkWeight(w, p)))
  {
    forall i, p | 0 <= i < |cities| && WalkFromTo(graph, p, source, cities[i])
      ensures cities[i] in dist
      ensures Le(dist[cities[i]], Fin(WalkWeight(w, p)))
    {
      WalkEndsInside(graph, p, source, cities[i]);
      ShortestPaths(graph, source, w, dist, prev, rank, cities[i]);
    }
  }

  /**
   * For the result of the search from `source`, the nearest destination
   * choice is a shortest route: the chosen city is reached by its rebuilt
   * path, which weighs exactly the chosen distance; no walk from the source
   * to any destination city weighs less; every walk to a city listed before
   * it weighs strictly more; and nothing is chosen exactly when no
   * destination city can be reached at all.
   */
  lemma ChoiceIsShortest<V(!new)>(graph: map<V, seq<V>>, source: V, w: (V, V) -> Weight,
                            dist: map<V, Dist>, prev: map<V, Option<V>>, rank: map<V, nat>, cities: seq<V>)
    requires EdgesInside(graph)
    requires dist.Keys == graph.Keys + {source} && prev.Keys == graph.Keys
    requires dist[source] == Fin(0.0)
    requires RelaxedFrom(graph, w, dist, graph.Keys)
    requires Tight(graph, w, dist, prev, graph.Keys)
    requires PrevIffFinite(source, dist, prev)
    requires RankedBy(prev, rank)
    ensures Reconstructible(cities, dist, prev, source, rank)
    ensures var r := NearestMosque(cities, dist, prev, source, rank);
      && (r.nearest.None? <==> forall i, p | 0 <= i < |cities| :: !WalkFromTo(graph, p, source, cities[i]))
      && (r.nearest.Some? ==>
            && r.nearest.value in cities
            && WalkFromTo(graph, r.path, source, r.nearest.value)
            && r.distance == Fin(WalkWeight(w, r.path)))
      && (r.nearest.Some? ==> EarlierFarther(graph, w, cities, source, r.nearest.value, r.distance))
      && (forall i, p | 0 <= i < |cities| && WalkFromTo(graph, p, source, cities[i]) :: Le(r.distance, Fin(WalkWeight(w, p))))
  {
    CitiesReconstructible(graph, source, w, dist, prev, rank, cities);
    WalksToCitiesBounded(graph, source, w, dist, prev, rank, cities);
    var r := NearestMosque(cities, dist, prev, source, rank);
    if r.nearest.Some? {
      var k :| && FirstNearestCity(cities, |cities|, dist, k)
               && r.nearest.value == cities[k]
               && r.distance == dist[cities[k]]
               && r.path == ReconstructPath(prev, source, cities[k], rank);
      ShortestPaths(graph, source, w, dist, prev, rank, cities[k]);
      assert WalkFromTo(graph, r.path, source, cities[k]);
      forall i, p | 0 <= i < |cities| && WalkFromTo(graph, p, source, cities[i])
        ensures Le(r.distance, Fin(WalkWeight(w, p)))
      {
        assert Le(r.distance, dist[cities[i]]);
      }
      forall j, p | 0 <= j < k && WalkFromTo(graph, p, source, cities[j])
        ensures Lt(r.distance, Fin(WalkWeight(w, p)))
      {
        assert Lt(r.distance, dist[cities[j]]);
      }
    } else {
      forall i, p | 0 <= i < |cities|
        ensures !WalkFromTo(graph, p, source, cities[i])
      {
        if cities[i] in dist {
          ShortestPaths(graph, source, w, dist, prev, rank, cities[i]);
        }
      }
    }
  }

  /** A walk from the source ends at the source or at a vertex of the graph. */
  lemma WalkEndsInside<V>(graph: map<V, seq<V>>, p: seq<V>, source: V, v: V)
    requires EdgesInside(graph) && WalkFromTo(graph, p, source, v)
    ensures v == source || v in graph
  {
    if |p| > 1 {
      assert p[|p| - 1] in graph[p[|p| - 2]];
    }
  }

  /**
   * `run_search` (2masjid_heap.py:14-37): the closest vertex to the query,
   * and the nearest destination reached from it with its distance and path.
   * Every vertex that has an edge must have a location, as the edge weights
   * are computed from the locations table.
   */
  method RunSearch<V(==,!new), C>(graph: map<V, seq<V>>, w: (V, V) -> Weight, locations: seq<(V, C)>, query: C,
                             measure: (C, C) -> real, cities: seq<V>)
    returns (closest: Option<V>, choice: Choice<V>)
    requires EdgesInside(graph)
    requires forall u, v | u in graph && v in graph[u] :: u in Located(locations) && v in Located(locations)
    ensures closest.None? <==> |locations| == 0
    ensures closest.None? ==> choice == Choice(None, Inf, [])
    ensures closest.Some? ==> exists k :: FirstNearest(locations, |locations|, query, measure, k) && closest.value == locations[k].0
    ensures closest.Some? ==>
      && (choice.nearest.None? <==> forall i, p | 0 <= i < |cities| :: !WalkFromTo(graph, p, closest.value, cities[i]))
      && (choice.nearest.None? ==> choice.distance == Inf && choice.path == [])
      && (choice.nearest.Some? ==>
            && choice.nearest.value in cities
            && WalkFromTo(graph, choice.path, closest.value, choice.nearest.value)
            && choice.distance == Fin(WalkWeight(w, choice.path))
            && EarlierFarther(graph, w, cities, closest.value, choice.nearest.value, choice.distance))
      && (forall i, p | 0 <= i < |cities| && WalkFromTo(graph, p, closest.value, cities[i]) ::
            Le(choice.distance, Fin(WalkWeight(w, p))))
  {
    var distance;
    closest, distance := FindClosestNode(locations, query, measure);
    match closest
    case None =>
      choice := Choice(None, Inf, []);
    case Some(origin) =>
      var dist, prev, rank := Dijkstra(graph, origin, w);
      ChoiceIsShortest(graph, origin, w, dist, prev, rank, cities);
      choice := NearestMosque(cities, dist, prev, origin, rank);
  }
}

=== FILE: shortest_path.dfy ===
/**
 * `dijkstra_with_path` of function.py: single-source shortest distances over
 * an adjacency list, driven by the pairing heap, together with the table of
 * predecessors on the shortest paths found.
 *
 * The edge weight is the haversine distance between the two vertices'
 * coordinates; here it is an arbitrary non-negative function `w` of the two
 * vertices.
 */
module ShortestPath {
  import opened Optional
  import opened Distance
  import opened PairingHeap
  import opened PathReconstruction

  /** An edge weight: non-negative, as a great-circle distance is. */
  type Weight = x: real | 0.0 <= x

  /**
   * Every listed neighbour is a vertex of the graph or the source: the search
   * looks each one up in `distances`, which holds exactly those keys.
   */
  ghost predicate NeighborsKnown<V>(graph: map<V, seq<V>>, source: V) {
    forall u, v | u in graph && v in graph[u] :: v in graph || v == source
  }

  /** No edge leaving a vertex of `from` can shorten the distance of its target. */
  ghost predicate RelaxedFrom<V>(graph: map<V, seq<V>>, w: (V, V) -> Weight, dist: map<V, Dist>, from: set<V>) {
    forall u | u in from && u in graph :: forall v | v in graph[u] ::
      u in dist && v in dist && Le(dist[v], Add(dist[u], w(u, v)))
  }

  /**
   * Each recorded predecessor is a vertex of `from` with a finite distance,
   * joined by an edge whose weight accounts exactly for the distance recorded
   * at its target.
   */
  ghost predicate Tight<V>(graph: map<V, seq<V>>, w: (V, V) -> Weight, dist: map<V, Dist>, prev: map<V, Option<V>>, from: set<V>) {
    forall v | v in prev && prev[v].Some? ::
      && prev[v].value in from
      && prev[v].value in graph
      && v in graph[prev[v].value]
      && prev[v].value in dist && v in dist
      && dist[prev[v].value].Fin?
      && dist[v] == Add(dist[prev[v].value], w(prev[v].value, v))
  }

  /* ---------------------------------------------------------------------- */
  /* The heap as the search uses it                                          */
  /* ---------------------------------------------------------------------- */

  /** Each entry of `m` is `(dist[x], x)` for a vertex `x` of `queue`, and occurs once. */
  ghost predicate OnePer<V>(m: multiset<Entry<V>>, queue: set<V>, dist: map<V, Dist>) {
    forall e | e in m :: e.1 in queue && e.1 in dist && e.0 == dist[e.1] && m[e] == 1
  }

  /** The heap holds exactly one entry `(dist[x], x)` for each vertex `x` of `queue`. */
  ghost predicate Tracks<V>(h: Heap<V>, queue: set<V>, dist: map<V, Dist>) {
    && Valid(h)
    && h.index.Keys == queue
    && queue <= dist.Keys
    && (forall x | x in queue :: h.index[x] == dist[x])
    && OnePer(Contents(h), queue, dist)
  }

  lemma OnePerAdd<V>(m: multiset<Entry<V>>, queue: set<V>, dist: map<V, Dist>, v: V)
    requires OnePer(m, queue, dist) && v !in queue && v in dist
    ensures OnePer(m + multiset{(dist[v], v)}, queue + {v}, dist)
  {
    var m' := m + multiset{(dist[v], v)};
    forall e | e in m'
      ensures e.1 in queue + {v} && e.1 in dist && e.0 == dist[e.1] && m'[e] == 1
    {
      if e == (dist[v], v) {
        assert e !in m;
      } else {
        assert e in m;
      }
    }
  }

  lemma OnePerRemove<V>(m: multiset<Entry<V>>, queue: set<V>, dist: map<V, Dist>, e: Entry<V>)
    requires OnePer(m, queue, dist) && e in m
    ensures OnePer(m - multiset{e}, queue - {e.1}, dist)
  {
    var m' := m - multiset{e};
    forall x | x in m'
      ensures x.1 in queue - {e.1} && x.1 in dist && x.0 == dist[x.1] && m'[x] == 1
    {
      assert m'[x] == m[x] - (if x == e then 1 else 0);
    }
  }

  lemma OnePerReplace<V>(m: multiset<Entry<V>>, m': multiset<Entry<V>>, queue: set<V>, dist: map<V, Dist>, v: V, d: Dist)
    requires OnePer(m, queue, dist) && v in queue && v in dist && d != dist[v]
    requires m' + multiset{(dist[v], v)} == m + multiset{(d, v)}
    ensures OnePer(m', queue, dist[v := d])
  {
    var o, n := (dist[v], v), (d, v);
    assert n !in m;
    forall e | e in m'
      ensures e.1 in queue && e.1 in dist[v := d] && e.0 == dist[v := d][e.1] && m'[e] == 1
    {
      assert (m' + multiset{o})[e] == (m + multiset{n})[e];
      if e != n {
        assert e in m;
      }
    }
  }

  lemma TracksInsert<V>(h: Heap<V>, queue: set<V>, dist: map<V, Dist>, v: V)
    requires Tracks(h, queue, dist) && v !in queue && v in dist
    ensures Tracks(Insert(h, dist[v], v), queue + {v}, dist)
  {
    OnePerAdd(Contents(h), queue, dist, v);
  }

  /** Popping the heap yields the queued vertex of least distance and stops tracking it. */
  lemma TracksDeleteMin<V>(h: Heap<V>, queue: set<V>, dist: map<V, Dist>)
    requires Tracks(h, queue, dist) && Contents(h) != multiset{}
    ensures DeleteMin(h).0.Some?
    ensures var (d, u) := DeleteMin(h).0.value;
      && u in queue && d == dist[u]
      && (forall q | q in queue :: Le(d, dist[q]))
      && Tracks(DeleteMin(h).1, queue - {u}, dist)
  {
    var r := DeleteMin(h);
    var e := r.0.value;
    forall q | q in queue
      ensures Le(e.0, dist[q])
    {
      assert (h.index[q], q) in Contents(h);
    }
    OnePerRemove(Contents(h), queue, dist, e);
  }

  /** Lowering the key of a queued vertex keeps the heap tracking the lowered distance. */
  lemma TracksDecrease<V>(h: Heap<V>, queue: set<V>, dist: map<V, Dist>, v: V, d: Dist)
    requires Tracks(h, queue, dist) && v in queue && Lt(d, dist[v])
    ensures Tracks(DecreaseKey(h, v, d), queue, dist[v := d])
  {
    var r := DecreaseKey(h, v, d);
    TracksRekeyed(h, r, queue, dist, v, d);
  }

  lemma TracksRekeyed<V>(h: Heap<V>, r: Heap<V>, queue: set<V>, dist: map<V, Dist>, v: V, d: Dist)
    requires Tracks(h, queue, dist) && v in queue && d != dist[v]
    requires Valid(r) && r.index == h.index[v := d]
    requires Contents(r) + multiset{(dist[v], v)} == Contents(h) + multiset{(d, v)}
    ensures Tracks(r, queue, dist[v := d])
  {
    OnePerReplace(Contents(h), Contents(r), queue, dist, v, d);
  }

  /** A tracking heap has no entries exactly when it tracks no vertices. */
  lemma TracksEmpty<V>(h: Heap<V>, queue: set<V>, dist: map<V, Dist>)
    requires Tracks(h, queue, dist)
    ensures Contents(h) == multiset{} <==> queue == {}
  {
    if q :| q in queue {
      assert (h.index[q], q) in Contents(h);
    }
  }

  /* ---------------------------------------------------------------------- */
  /* The search                                                              */
  /* ---------------------------------------------------------------------- */

  /** The tables cover the graph, and the source sits at distance zero. */
  ghost predicate Tables<V>(graph: map<V, seq<V>>, source: V, queue: set<V>, done: set<V>,
                            dist: map<V, Dist>, prev: map<V, Option<V>>) {
    && queue !! done && queue + done == graph.Keys
    && dist.Keys == graph.Keys + {source} && prev.Keys == graph.Keys
    && dist[source] == Fin(0.0)
    && (forall x | x in dist :: NonNeg(dist[x]))
  }

  /** Every popped vertex is no farther than any vertex still queued. */
  ghost predicate Frontier<V>(queue: set<V>, done: set<V>, dist: map<V, Dist>)
    requires queue + done <= dist.Keys
  {
    forall s, q | s in done && q in queue :: Le(dist[s], dist[q])
  }

  /**
   * A vertex other than the source has a predecessor exactly when its
   * distance is finite; the source never gets one.
   */
  ghost predicate PrevIffFinite<V>(source: V, dist: map<V, Dist>, prev: map<V, Option<V>>) {
    && (forall x | x in prev && x != source :: x in dist && (prev[x].None? <==> dist[x] == Inf))
    && (source in prev ==> prev[source] == None)
  }

  /** `rank` numbers the popped vertices below `count`, each after its predecessor. */
  ghost predicate Ranked<V>(done: set<V>, prev: map<V, Option<V>>, rank: map<V, nat>, count: nat) {
    && rank.Keys == done
    && (forall s | s in done :: rank[s] < count)
    && (forall x | x in done && x in prev && prev[x].Some? :: prev[x].value in rank && rank[prev[x].value] < rank[x])
  }

  /**
   * What holds between rounds of the main loop: `done` holds the vertices
   * popped so far, `queue` the ones still in the heap.
   */
  ghost predicate Progress<V>(graph: map<V, seq<V>>, source: V, w: (V, V) -> Weight, queue: set<V>, done: set<V>,
                              dist: map<V, Dist>, prev: map<V, Option<V>>, rank: map<V, nat>, count: nat) {
    && Tables(graph, source, queue, done, dist, prev)
    && Frontier(queue, done, dist)
    && Tight(graph, w, dist, prev, done)
    && PrevIffFinite(source, dist, prev)
    && Ranked(done, prev, rank, count)
  }

  /** Only a queued vertex can be improved through an edge out of a popped one. */
  lemma ImprovedIsQueued<V>(graph: map<V, seq<V>>, source: V, queue: set<V>, done: set<V>,
                            dist: map<V, Dist>, prev: map<V, Option<V>>, u: V, v: V, nd: Dist)
    requires NeighborsKnown(graph, source)
    requires Tables(graph, source, queue, done, dist, prev)
    requires u in done && u in graph && v in graph[u]
    requires forall s | s in done :: Le(dist[s], dist[u])
    requires Le(dist[u], nd) && Lt(nd, dist[v])
    ensures v in queue && v != source
  {
  }

  /** Recording an improvement `nd` at a queued `v`, reached from popped `u`, keeps the round invariant. */
  lemma ImproveKeepsProgress<V>(graph: map<V, seq<V>>, source: V, w: (V, V) -> Weight, queue: set<V>, done: set<V>,
                                dist: map<V, Dist>, prev: map<V, Option<V>>, rank: map<V, nat>, count: nat,
                                u: V, v: V, nd: Dist)
    requires Progress(graph, source, w, queue, done, dist, prev, rank, count)
    requires u in done && u in graph && v in graph[u] && v in queue && v != source
    requires forall s | s in done :: Le(dist[s], dist[u])
    requires nd == Add(dist[u], w(u, v)) && Lt(nd, dist[v])
    ensures Progress(graph, source, w, queue, done, dist[v := nd], prev[v := Some(u)], rank, count)
  {
    ImproveKeepsTables(graph, source, queue, done, dist, prev, u, v, nd);
    ImproveKeepsFrontier(queue, done, dist, u, v, nd);
    ImproveKeepsTight(graph, w, dist, prev, done, u, v, nd);
  }

  lemma ImproveKeepsTables<V>(graph: map<V, seq<V>>, source: V, queue: set<V>, done: set<V>,
                              dist: map<V, Dist>, prev: map<V, Option<V>>, u: V, v: V, nd: Dist)
    requires Tables(graph, source, queue, done, dist, prev)
    requires u in done && v in queue && v != source
    requires Le(dist[u], nd) && nd.Fin?
    ensures Tables(graph, source, queue, done, dist[v := nd], prev[v := Some(u)])
  {
  }

  lemma ImproveKeepsFrontier<V>(queue: set<V>, done: set<V>, dist: map<V, Dist>, u: V, v: V, nd: Dist)
    requires queue !! done && queue + done <= dist.Keys && Frontier(queue, done, dist)
    requires u in done && v in queue
    requires forall s | s in done :: Le(dist[s], dist[u])
    requires Le(dist[u], nd)
    ensures Frontier(queue, done, dist[v := nd])
  {
    var dist' := dist[v := nd];
    forall s, q | s in done && q in queue
      ensures Le(dist'[s], dist'[q])
    {
      if q == v {
        assert Le(dist[s], dist[u]);
      }
    }
  }

  lemma ImproveKeepsTight<V>(graph: map<V, seq<V>>, w: (V, V) -> Weight, dist: map<V, Dist>, prev: map<V, Option<V>>,
                             done: set<V>, u: V, v: V, nd: Dist)
    requires Tight(graph, w, dist, prev, done)
    requires u in done && v !in done && u in graph && v in graph[u] && u in dist && v in dist && v in prev
    requires dist[u].Fin? && nd == Add(dist[u], w(u, v))
    ensures Tight(graph, w, dist[v := nd], prev[v := Some(u)], done)
  {
  }

  /** Lowering the distance of a vertex outside `from` keeps every edge out of `from` relaxed. */
  lemma LowerKeepsRelaxed<V>(graph: map<V, seq<V>>, w: (V, V) -> Weight, dist: map<V, Dist>, from: set<V>, v: V, nd: Dist)
    requires RelaxedFrom(graph, w, dist, from)
    requires v in dist && v !in from && Le(nd, dist[v])
    ensures RelaxedFrom(graph, w, dist[v := nd], from)
  {
    var dist' := dist[v := nd];
    forall x, y | x in from && x in graph && y in graph[x]
      ensures x in dist' && y in dist' && Le(dist'[y], Add(dist'[x], w(x, y)))
    {
      if y == v {
        assert Le(dist[y], Add(dist[x], w(x, y)));
      }
    }
  }

  /** The first `i` edges out of `u`, popped at distance `d`, are relaxed. */
  ghost predicate RelaxedUpTo<V>(graph: map<V, seq<V>>, w: (V, V) -> Weight, dist: map<V, Dist>, u: V, d: Dist, i: nat)
    requires u in graph && i <= |graph[u]|
  {
    forall j | 0 <= j < i :: graph[u][j] in dist && Le(dist[graph[u][j]], Add(d, w(u, graph[u][j])))
  }

  lemma RelaxedUpToNext<V>(graph: map<V, seq<V>>, w: (V, V) -> Weight, dist: map<V, Dist>, u: V, d: Dist, i: nat, nd: Dist)
    requires u in graph && i < |graph[u]|
    requires RelaxedUpTo(graph, w, dist, u, d, i)
    requires graph[u][i] in dist && Le(nd, dist[graph[u][i]]) && Le(nd, Add(d, w(u, graph[u][i])))
    ensures RelaxedUpTo(graph, w, dist[graph[u][i] := nd], u, d, i + 1)
  {
    var dist' := dist[graph[u][i] := nd];
    forall j | 0 <= j < i + 1
      ensures graph[u][j] in dist' && Le(dist'[graph[u][j]], Add(d, w(u, graph[u][j])))
    {
      var x := graph[u][j];
      if j < i && x == graph[u][i] {
        assert Le(dist[x], Add(d, w(u, x)));
      }
    }
  }

  lemma RelaxedUpToAll<V>(graph: map<V, seq<V>>, w: (V, V) -> Weight, dist: map<V, Dist>, u: V, from: set<V>)
    requires u in graph && u in dist
    requires RelaxedFrom(graph, w, dist, from - {u})
    requires RelaxedUpTo(graph, w, dist, u, dist[u], |graph[u]|)
    ensures RelaxedFrom(graph, w, dist, from)
  {
    forall x, v | x in from && x in graph && v in graph[x]
      ensures x in dist
      ensures v in dist
      ensures Le(dist[v], Add(dist[x], w(x, v)))
    {
      if x == u {
        var j :| 0 <= j < |graph[u]| && graph[u][j] == v;
      } else {
        assert x in from - {u};
      }
    }
  }

  /**
   * One pass of the inner loop of `dijkstra_with_path` (function.py:146-154)
   * for the `i`-th neighbour `v` of `u`, popped at distance `d`: when going
   * through `u` strictly shortens the distance of `v`, the new distance and
   * `u` as predecessor are recorded and the heap key of `v` is lowered;
   * otherwise nothing changes. Either way the edge ends up relaxed.
   */
  method RelaxEdge<V(==)>(graph: map<V, seq<V>>, source: V, w: (V, V) -> Weight, u: V, d: Dist, v: V,
                          h0: Heap<V>, dist0: map<V, Dist>, prev0: map<V, Option<V>>,
                          ghost i: nat, ghost queue: set<V>, ghost done: set<V>, ghost rank: map<V, nat>, ghost count: nat)
    returns (h: Heap<V>, dist: map<V, Dist>, prev: map<V, Option<V>>)
    requires NeighborsKnown(graph, source)
    requires u in done && u in graph && i < |graph[u]| && v == graph[u][i]
    requires Tracks(h0, queue, dist0)
    requires Progress(graph, source, w, queue, done, dist0, prev0, rank, count)
    requires u in dist0 && dist0[u] == d && forall s | s in done :: Le(dist0[s], d)
    requires RelaxedFrom(graph, w, dist0, done - {u}) && RelaxedUpTo(graph, w, dist0, u, d, i)
    ensures Tracks(h, queue, dist)
    ensures Progress(graph, source, w, queue, done, dist, prev, rank, count)
    ensures u in dist && dist[u] == d && forall s | s in done :: Le(dist[s], d)
    ensures RelaxedFrom(graph, w, dist, done - {u}) && RelaxedUpTo(graph, w, dist, u, d, i + 1)
    ensures Lt(Add(d, w(u, v)), dist0[v]) ==> dist == dist0[v := Add(d, w(u, v))] && prev == prev0[v := Some(u)]
    ensures !Lt(Add(d, w(u, v)), dist0[v]) ==> h == h0 && dist == dist0 && prev == prev0
  {
    h, dist, prev := h0, dist0, prev0;
    assert v in graph[u];
    var newDistance := Add(d, w(u, v));
    if Lt(newDistance, dist[v]) {
      ImprovedIsQueued(graph, source, queue, done, dist, prev, u, v, newDistance);
      ImproveKeepsProgress(graph, source, w, queue, done, dist, prev, rank, count, u, v, newDistance);
      TracksDecrease(h, queue, dist, v, newDistance);
      LowerKeepsRelaxed(graph, w, dist, done - {u}, v, newDistance);
      RelaxedUpToNext(graph, w, dist, u, d, i, newDistance);
      dist := dist[v := newDistance];
      prev := prev[v := Some(u)];
      h := DecreaseKey(h, v, newDistance);
    } else {
      RelaxedUpToNext(graph, w, dist, u, d, i, dist[v]);
      assert dist[v := dist[v]] == dist;
    }
  }

  /**
   * The inner loop of `dijkstra_with_path` (function.py:144-154): relaxes
   * every edge out of the vertex `u` just popped at distance `d`.
   */
  method RelaxEdges<V(==)>(graph: map<V, seq<V>>, source: V, w: (V, V) -> Weight, u: V, d: Dist,
                           h0: Heap<V>, dist0: map<V, Dist>, prev0: map<V, Option<V>>,
                           ghost queue: set<V>, ghost done: set<V>, ghost rank: map<V, nat>, ghost count: nat)
    returns (h: Heap<V>, dist: map<V, Dist>, prev: map<V, Option<V>>)
    requires NeighborsKnown(graph, source)
    requires u in done && u in graph
    requires Tracks(h0, queue, dist0)
    requires Progress(graph, source, w, queue, done, dist0, prev0, rank, count)
    requires u in dist0 && dist0[u] == d && forall s | s in done :: Le(dist0[s], d)
    requires RelaxedFrom(graph, w, dist0, done - {u})
    ensures Tracks(h, queue, dist)
    ensures Progress(graph, source, w, queue, done, dist, prev, rank, count)
    ensures RelaxedFrom(graph, w, dist, done)
  {
    h, dist, prev := h0, dist0, prev0;
    var neighbors := graph[u];
    var i := 0;
    while i < |neighbors|
      invariant i <= |neighbors|
      invariant Tracks(h, queue, dist)
      invariant Progress(graph, source, w, queue, done, dist, prev, rank, count)
      invariant u in dist && dist[u] == d && forall s | s in done :: Le(dist[s], d)
      invariant RelaxedFrom(graph, w, dist, done - {u}) && RelaxedUpTo(graph, w, dist, u, d, i)
    {
      h, dist, prev := RelaxEdge(graph, source, w, u, d, neighbors[i], h, dist, prev, i, queue, done, rank, count);
      i := i + 1;
    }
    RelaxedUpToAll(graph, w, dist, u, done);
  }

  /** Before the first pop: everything is queued, only the source has a finite distance. */
  lemma StartProgress<V>(graph: map<V, seq<V>>, source: V, w: (V, V) -> Weight, dist: map<V, Dist>, prev: map<V, Option<V>>)
    requires dist == (map v | v in graph :: Inf)[source := Fin(0.0)]
    requires prev == map v | v in graph :: None
    ensures Progress(graph, source, w, graph.Keys, {}, dist, prev, map[], 0)
  {
  }

  /** Popping `u` at the least queued distance `d` moves it from the queue to the popped set. */
  lemma PopKeepsProgress<V>(graph: map<V, seq<V>>, source: V, w: (V, V) -> Weight, queue: set<V>, done: set<V>,
                            dist: map<V, Dist>, prev: map<V, Option<V>>, rank: map<V, nat>, count: nat, u: V, d: Dist)
    requires Progress(graph, source, w, queue, done, dist, prev, rank, count)
    requires RelaxedFrom(graph, w, dist, done)
    requires u in queue && d == dist[u] && forall q | q in queue :: Le(d, dist[q])
    ensures Progress(graph, source, w, queue - {u}, done + {u}, dist, prev, rank[u := count], count + 1)
    ensures forall s | s in done + {u} :: Le(dist[s], d)
    ensures RelaxedFrom(graph, w, dist, (done + {u}) - {u})
  {
    assert (done + {u}) - {u} == done;
    PopKeepsTables(graph, source, queue, done, dist, prev, u);
    PopKeepsRanked(graph, w, done, dist, prev, rank, count, u);
  }

  lemma PopKeepsTables<V>(graph: map<V, seq<V>>, source: V, queue: set<V>, done: set<V>,
                          dist: map<V, Dist>, prev: map<V, Option<V>>, u: V)
    requires Tables(graph, source, queue, done, dist, prev) && u in queue
    ensures Tables(graph, source, queue - {u}, done + {u}, dist, prev)
  {
    assert (queue - {u}) + (done + {u}) == queue + done;
  }

  lemma PopKeepsRanked<V>(graph: map<V, seq<V>>, w: (V, V) -> Weight, done: set<V>,
                          dist: map<V, Dist>, prev: map<V, Option<V>>, rank: map<V, nat>, count: nat, u: V)
    requires Ranked(done, prev, rank, count) && Tight(graph, w, dist, prev, done) && u !in done
    ensures Ranked(done + {u}, prev, rank[u := count], count + 1)
    ensures Tight(graph, w, dist, prev, done + {u})
  {
  }

  /** Once nothing is queued, the popping order ranks every predecessor link. */
  lemma FinishedRanked<V>(graph: map<V, seq<V>>, source: V, w: (V, V) -> Weight,
                          dist: map<V, Dist>, prev: map<V, Option<V>>, rank: map<V, nat>, count: nat)
    requires Progress(graph, source, w, {}, graph.Keys, dist, prev, rank, count)
    ensures RankedBy(prev, rank)
  {
  }

  lemma MoveOne<V>(all: set<V>, pending: set<V>, v: V)
    requires v in pending && pending <= all
    ensures (all - pending) + {v} == all - (pending - {v})
  {
  }

  /**
   * The first loop of `dijkstra_with_path` (function.py:141-142): every
   * vertex of the graph is inserted at its initial distance, in an
   * unspecified order.
   */
  method QueueAll<V(==)>(graph: map<V, seq<V>>, dist: map<V, Dist>) returns (h: Heap<V>)
    requires graph.Keys <= dist.Keys
    ensures Tracks(h, graph.Keys, dist)
  {
    h := Empty();
    var pending := graph.Keys;
    while pending != {}
      invariant pending <= graph.Keys
      invariant Tracks(h, graph.Keys - pending, dist)
      decreases |pending|
    {
      var v :| v in pending;
      TracksInsert(h, graph.Keys - pending, dist, v);
      MoveOne(graph.Keys, pending, v);
      h := Insert(h, dist[v], v);
      pending := pending - {v};
    }
  }

  /**
   * `dijkstra_with_path(graph, source, locations)` (function.py:134-156):
   * every vertex starts at `inf` except the source at 0, all vertices are
   * queued, and popping the nearest one relaxes its edges until the heap is
   * empty. The result is the relaxation fixpoint over every edge of the
   * graph, with each recorded predecessor accounting exactly for the
   * distance it leads to; `rank` is the popping order, which ranks every
   * predecessor link below its target.
   */
  method Dijkstra<V(==)>(graph: map<V, seq<V>>, source: V, w: (V, V) -> Weight)
    returns (dist: map<V, Dist>, prev: map<V, Option<V>>, ghost rank: map<V, nat>)
    requires NeighborsKnown(graph, source)
    ensures dist.Keys == graph.Keys + {source} && prev.Keys == graph.Keys
    ensures dist[source] == Fin(0.0)
    ensures RelaxedFrom(graph, w, dist, graph.Keys)
    ensures Tight(graph, w, dist, prev, graph.Keys)
    ensures PrevIffFinite(source, dist, prev)
    ensures RankedBy(prev, rank)
  {
    dist := (map v | v in graph :: Inf)[source := Fin(0.0)];
    prev := map v | v in graph :: None;
    var h := QueueAll(graph, dist);
    ghost var queue := graph.Keys;
    ghost var done: set<V> := {};
    rank := map[];
    ghost var count: nat := 0;
    StartProgress(graph, source, w, dist, prev);
    while !IsEmpty(h)
      invariant Tracks(h, queue, dist)
      invariant Progress(graph, source, w, queue, done, dist, prev, rank, count)
      invariant RelaxedFrom(graph, w, dist, done)
      decreases |queue|
    {
      TracksDeleteMin(h, queue, dist);
      var popped := DeleteMin(h);
      var (d, u) := popped.0.value;
      PopKeepsProgress(graph, source, w, queue, done, dist, prev, rank, count, u, d);
      h := popped.1;
      queue, done := queue - {u}, done + {u};
      rank, count := rank[u := count], count + 1;
      h, dist, prev := RelaxEdges(graph, source, w, u, d, h, dist, prev, queue, done, rank, count);
    }
    TracksEmpty(h, queue, dist);
    FinishedRanked(graph, source, w, dist, prev, rank, count);
  }

  /* ---------------------------------------------------------------------- */
  /* What the result means                                                   */
  /* ---------------------------------------------------------------------- */

  /** Each vertex of `p` after the first is a listed neighbour of the one before it. */
  ghost predicate IsWalk<V>(graph: map<V, seq<V>>, p: seq<V>)
    decreases |p|
  {
    |p| <= 1 || (IsWalk(graph, p[..|p| - 1]) && p[|p| - 2] in graph && p[|p| - 1] in graph[p[|p| - 2]])
  }

  /** `p` is a walk along edges of `graph` from `a` to `b`. */
  ghost predicate WalkFromTo<V>(graph: map<V, seq<V>>, p: seq<V>, a: V, b: V) {
    |p| > 0 && p[0] == a && p[|p| - 1] == b && IsWalk(graph, p)
  }

  /** The total weight of the edges along `p`. */
  ghost function WalkWeight<V>(w: (V, V) -> Weight, p: seq<V>): (total: real)
    ensures 0.0 <= total
    decreases |p|
  {
    if |p| <= 1 then 0.0 else WalkWeight(w, p[..|p| - 1]) + w(p[|p| - 2], p[|p| - 1])
  }

  /** At the relaxation fixpoint no walk from the source is shorter than the distance of its end. */
  lemma {:induction false} NoWalkIsShorter<V>(graph: map<V, seq<V>>, source: V, w: (V, V) -> Weight,
                                              dist: map<V, Dist>, p: seq<V>, v: V)
    requires RelaxedFrom(graph, w, dist, graph.Keys)
    requires source in dist && dist[source] == Fin(0.0)
    requires WalkFromTo(graph, p, source, v)
    ensures v in dist && Le(dist[v], Fin(WalkWeight(w, p)))
    decreases |p|
  {
    var n := |p|;
    if n > 1 {
      var u := p[n - 2];
      assert WalkFromTo(graph, p[..n - 1], source, u);
      NoWalkIsShorter(graph, source, w, dist, p[..n - 1], u);
      assert Le(dist[v], Add(dist[u], w(u, v)));
    }
  }

  /** A chain of tight predecessors from the source is a walk whose weight is the distance of its end. */
  lemma {:induction false} ChainAttainsDist<V>(graph: map<V, seq<V>>, source: V, w: (V, V) -> Weight,
                                               dist: map<V, Dist>, prev: map<V, Option<V>>, p: seq<V>, v: V)
    requires Tight(graph, w, dist, prev, graph.Keys)
    requires source in dist && dist[source] == Fin(0.0)
    requires IsChain(prev, p, source, v)
    ensures WalkFromTo(graph, p, source, v)
    ensures v in dist && dist[v] == Fin(WalkWeight(w, p))
    decreases |p|
  {
    var n := |p|;
    if n > 1 {
      var u := p[n - 2];
      assert IsChain(prev, p[..n - 1], source, u);
      ChainAttainsDist(graph, source, w, dist, prev, p[..n - 1], u);
      assert prev[v] == Some(u);
    }
  }

  /** The backward walk from a vertex with a finite distance reaches the source. */
  lemma {:induction false} FiniteWalksBack<V>(graph: map<V, seq<V>>, source: V, w: (V, V) -> Weight,
                                              dist: map<V, Dist>, prev: map<V, Option<V>>, rank: map<V, nat>, v: V)
    requires prev.Keys == graph.Keys
    requires Tight(graph, w, dist, prev, graph.Keys) && PrevIffFinite(source, dist, prev) && RankedBy(prev, rank)
    requires v == source || (v in prev && dist[v].Fin?)
    ensures Closed(prev, source, v)
    ensures Walk(prev, source, v, rank).Some?
    decreases if v in rank then rank[v] + 1 else 0
  {
    if v != source {
      var u := prev[v].value;
      FiniteWalksBack(graph, source, w, dist, prev, rank, u);
    }
  }

  /**
   * The meaning of the search's result: a vertex has a finite distance
   * exactly when a walk from the source reaches it; then the reconstructed
   * path is such a walk and weighs exactly the distance, and no walk from
   * the source to it weighs less.
   */
  lemma ShortestPaths<V>(graph: map<V, seq<V>>, source: V, w: (V, V) -> Weight,
                         dist: map<V, Dist>, prev: map<V, Option<V>>, rank: map<V, nat>, v: V)
    requires dist.Keys == graph.Keys + {source} && prev.Keys == graph.Keys
    requires dist[source] == Fin(0.0)
    requires RelaxedFrom(graph, w, dist, graph.Keys)
    requires Tight(graph, w, dist, prev, graph.Keys)
    requires PrevIffFinite(source, dist, prev)
    requires RankedBy(prev, rank)
    requires v in dist
    ensures dist[v].Fin? <==> exists p :: WalkFromTo(graph, p, source, v)
    ensures forall p | WalkFromTo(graph, p, source, v) :: Le(dist[v], Fin(WalkWeight(w, p)))
    ensures dist[v].Fin? ==>
      && Closed(prev, source, v)
      && WalkFromTo(graph, ReconstructPath(prev, source, v, rank), source, v)
      && dist[v] == Fin(WalkWeight(w, ReconstructPath(prev, source, v, rank)))
  {
    forall p | WalkFromTo(graph, p, source, v)
      ensures Le(dist[v], Fin(WalkWeight(w, p)))
    {
      NoWalkIsShorter(graph, source, w, dist, p, v);
    }
    if dist[v].Fin? {
      FiniteWalksBack(graph, source, w, dist, prev, rank, v);
      var path := ReconstructPath(prev, source, v, rank);
      ChainAttainsDist(graph, source, w, dist, prev, path, v);
    }
  }
}
